=== FILE: README.md ===
# schulaufgabe backend core, modelled in Dafny

The schulaufgabe backend turns a photographed school worksheet into a PDF. The client uploads
an image, `upload_file` stores it under a fresh session id, `generate_latex` sends it with a
system prompt to a language model, `compile_pdf` compiles the returned LaTeX with tectonic and
`render_pdf` streams the resulting PDF. This project models `backend/main.py`:

- the helpers `clean_latex`, `get_secure_temp_dir`, `run_tectonic` and `verify_prometheus_auth`;
- the four request handlers, over an abstract file system.

The project has these modules:

- `Wrappers`, `Octets`: `Option` and `Result`, bytes.
- `Environment`: the process environment as a map, `os.getenv`.
- `PyText`: Python's `str.strip`, `lstrip` and `rstrip` with the `isspace` character set, and
  `re.sub` with a literal pattern. Matching runs left to right without overlaps, with or without
  case folding.
- `Latex`: `clean_latex`, its fixed points, its idempotence and how it unwraps fenced blocks.
  `LatexExamples` holds the five vectors of `backend/tests/test_clean_latex.py`.
- `Uuid`: `str(uuid.uuid4())` as a function of sixteen random bytes, with a parse round trip.
- `Paths`: POSIX `os.path.join`, the session directory `join(tempdir, "schulaufgabe", id)`, and
  `Resolved`, the directory the operating system reaches through a path.
- `FileSystem`: a map from path strings to directories and files, with `os.makedirs(exist_ok=True)`,
  writes, reads and `os.remove`.
- `Session`: the guard `get_secure_temp_dir`.
- `Tectonic`: `run_tectonic`'s path checks, its argument vector and `check=True`.
- `MetricsAuth`: `verify_prometheus_auth`.
- `Mocks`: the test-mode LaTeX and PDF.
- `Handlers`: `upload_file`, `generate_latex`, `compile_pdf` and `render_pdf`.
- `Workflows`: how the handlers behave in sequence, including the flows the API tests walk through.

What the outside world contributes is a parameter of the model:

- the sixteen random bytes behind `uuid.uuid4()`;
- the content of `gemini_system_prompt.txt`, `None` when it cannot be read;
- the language model's reply: an exception, or a response whose `text` may be missing;
- what the tectonic process did: failed to launch, or exited with a status, its output and
  possibly a PDF.

Each handler returns an `Outcome`. It records the response, the file system afterwards and the
call made to the model or the compiler, if any. An exception the handler does not catch becomes
`ServerError`, which the framework answers with status 500.

The model follows what the code does, also where its comments suggest more:

- The guard checks only that the session id is a `str` of 36 characters. Its docstring at
  `backend/main.py:73` speaks of a "secure temporary directory path" and the comment at
  `backend/main.py:74` of the UUID format. Yet an id that starts with `/` or holds `..` is
  accepted. See `Session.GuardAcceptsAbsoluteId`, `Session.GuardAcceptsParentSteps` and
  `Session.DistinctIdsShareDirectory`.
- An id of 36 characters that holds a NUL passes the length check. `os.makedirs` then raises
  `ValueError: embedded null byte`, which `exist_ok=True` does not cover, so every handler
  answers 500 (`Session.GuardRejectsNul`). The temporary root itself holds no NUL (`Handlers.TempDir`),
  so the session directory holds one exactly when the id does.
- `compile_pdf` never looks at `input.jpg`, so compiling without an upload succeeds (in test
  mode: `Workflows.CompileWithoutUpload`).
- After a zero exit status, `compile_pdf` reports success whenever `output.pdf` exists. That
  includes a PDF left over from an earlier compilation, which `render_pdf` then serves
  (`Workflows.StalePdfServed`). When the compiler does write a PDF, the later compilation's PDF
  is the one served (`Workflows.SecondRealCompileWins`).

## Model

| member | source | states |
|---|---|---|
| Latex.CleanLatex | backend/main.py:308-313 | strip, delete every case-insensitive "```latex" left to right, delete every "```", strip again; the result is trimmed and holds no "```" |
| Latex.CleanLatexFixedPoints | backend/main.py:308-313 | `clean_latex(t) == t` exactly when `t` is trimmed and holds no "```" |
| Latex.CleanLatexIdempotent | backend/main.py:308-313 | cleaning an already cleaned text changes nothing |
| Latex.CleanLatexKeepsClean | backend/main.py:308-313 | a trimmed text without "```" comes back unchanged |
| Latex.CleanLatexWithoutFences | backend/main.py:308-313 | a text in which "```" does not occur is only whitespace-trimmed |
| Latex.UnwrapFencedBlock | backend/main.py:308-313 | a block opened by "```latex" or "```" and closed by "```" yields its stripped body, if the body holds no backtick (and, after a bare "```", does not start with `l`) |
| Latex.DeleteFenceLeavesNone | backend/main.py:312 | after the second substitution no "```" is left anywhere |
| Latex.NoFenceNoLatexFence | backend/main.py:311 | where "```" does not occur, "```latex" cannot match in any letter case |
| LatexExamples.CleanLatexExampleLatexBlock | backend/tests/test_clean_latex.py:4-7 | a "```latex" block cleans to `\documentclass{article}` |
| LatexExamples.CleanLatexExamplePlainBlock | backend/tests/test_clean_latex.py:10-13 | a bare "```" block cleans to its two lines |
| LatexExamples.CleanLatexExampleNoMarkers | backend/tests/test_clean_latex.py:16-18 | text without markers comes back unchanged |
| LatexExamples.CleanLatexExampleEmpty | backend/tests/test_clean_latex.py:21-22 | the empty text stays empty |
| LatexExamples.CleanLatexExampleMarkersOnly | backend/tests/test_clean_latex.py:25-26 | "```latex```" cleans to the empty text |
| PyText.Strip | backend/main.py:310 | `str.strip()`: the result is trimmed, and only whitespace is removed from the two ends |
| PyText.DeleteAllFixedIff | backend/main.py:311-312 | `re.sub(pat, "", s)` leaves `s` unchanged exactly when `pat` matches nowhere in `s` |
| Uuid.NewSessionId | backend/main.py:213 | `str(uuid.uuid4())` is in the canonical 8-4-4-4-12 lower-case hexadecimal form |
| Uuid.NewSessionIdShape | backend/main.py:213 | the id is 36 characters long, shows version 4 and the RFC 4122 variant, and holds neither `/` nor NUL |
| Uuid.Uuid4 | backend/main.py:213 | the version nibble is 4 and the variant bits are 10; all other bits are the random ones |
| Uuid.ParseFormat | backend/main.py:213 | parsing a formatted id gives its sixteen bytes back |
| Uuid.FormatParse | backend/main.py:213 | whatever parses is the formatting of the bytes it parses to |
| Uuid.FormatInjective | backend/main.py:213 | different bytes give different ids |
| Paths.Join | backend/main.py:78 | `os.path.join`: an absolute second part replaces the first; otherwise the first is kept as a prefix and the second ends the result |
| Paths.SessionDirRelative | backend/main.py:78 | an id that does not start with `/` lands after the namespace directory and a slash |
| Paths.SessionDirAbsolute | backend/main.py:78 | an id that starts with `/` is its own directory; the root is discarded |
| Paths.SessionDirInjective | backend/main.py:78 | as strings, ids of equal length with the same directory are equal |
| Paths.ComponentsAroundSlash | backend/main.py:78 | a slash splits a path's components in two |
| Paths.JoinHas | backend/main.py:78 | a character other than `/` occurs in a joined path exactly when it occurs in a part the join keeps |
| Paths.SessionDirNul | backend/main.py:78 | under a root without NUL, the session directory holds a NUL exactly when the id does |
| Paths.ResolveConcat | backend/main.py:78-79 | resolving two runs of components resolves the second from where the first ends |
| Session.GetSecureTempDir | backend/main.py:72-80 | `ValueError` exactly when the id is not a `str` of length 36; otherwise the `ValueError` of an embedded NUL exactly when the directory path holds a NUL, else `FileExistsError` exactly when a file stands at the directory, else the directory is created or kept and nothing else changes |
| Session.GuardRejectsNul | backend/main.py:75-79 | a 36-character id holding a NUL passes the length check but never gets a directory: `os.makedirs` raises `ValueError` |
| Session.GuardIdempotent | backend/main.py:72-80 | passing the guard twice is passing it once |
| Session.NewSessionIdAccepted | backend/main.py:72-80 | every id `upload_file` mints passes the guard and lands in the namespace directory |
| Session.GuardAcceptsAbsoluteId | backend/main.py:75-79 | a 36-character id that starts with `/` is accepted, and its directory is the id itself |
| Session.GuardAcceptsParentSteps | backend/main.py:75-79 | a 36-character id that starts with `../` is accepted, unnormalised |
| Session.DistinctIdsShareDirectory | backend/main.py:75-79 | two different accepted ids have different directory strings that resolve to the same directory |
| FileSystem.ReadAfterWrite | backend/main.py:217-219 | reading a written file gives what was written |
| FileSystem.ReadOtherAfterWrite | backend/main.py:217-219 | a write changes no read at another path |
| FileSystem.LastWriteWins | backend/main.py:331-332 | of two writes to one path, the second wins |
| FileSystem.MakeDirs | backend/main.py:79 | `os.makedirs(p, exist_ok=True)` succeeds exactly when `p` holds no NUL and is not a file; then `p` is a directory and nothing else changes; the error is `ValueError` for a NUL, `FileExistsError` otherwise |
| FileSystem.NulFreeIff | backend/main.py:79 | a path the operating system accepts is exactly one without a NUL character |
| FileSystem.MakeDirKeepsOthers | backend/main.py:79 | creating a directory changes whether any other path exists, is a file or is a directory, and what a file there holds, in no way |
| FileSystem.MakeDirsIdempotent | backend/main.py:79 | `os.makedirs(p, exist_ok=True)` twice is once |
| FileSystem.RemoveAfterWrite | backend/main.py:358-359 | removing a freshly written file leaves every other path as before the write |
| Tectonic.TectonicArgv | backend/main.py:95-105 | eight words: the absolute binary, the TeX path, `--outdir`, the output directory, and four fixed options |
| Tectonic.ArgvOnlyPathsVary | backend/main.py:95-105 | every word other than positions 1 and 3 is the same, whatever the paths |
| Tectonic.RunTectonic | backend/main.py:83-109 | succeeds exactly when the TeX path is a file and the output path a directory; the TeX check comes first; on success, the fixed argument vector |
| Tectonic.Check | backend/main.py:106-108 | only exit status 0 completes; a non-zero status is `CalledProcessError` carrying stderr; a launch failure is an `OSError` |
| MetricsAuth.CompareDigest | backend/main.py:161-162 | equality of two `str`s, or a `TypeError` when either is not ASCII |
| MetricsAuth.VerifyPrometheusAuth | backend/main.py:144-170 | 500 exactly when either variable is unset or empty; a crash on non-ASCII; the credentials back exactly when both match; 401 otherwise |
| MetricsAuth.AuthDependsOnlyOnMetricsVars | backend/main.py:150-151 | environments that agree on the two metrics variables decide alike |
| MetricsAuth.ConfiguredCredentialsAccepted | backend/main.py:161-170 | the configured ASCII credentials are accepted |
| Mocks.MockLatexIsDocument | backend/main.py:238 | the test-mode LaTeX starts with `\documentclass` and ends with `}` |
| Mocks.MockLatexIsClean | backend/main.py:238 | the test-mode LaTeX is a fixed point of `clean_latex` |
| Mocks.MockPdfTextShape | backend/main.py:337-340 | the test-mode PDF text is ASCII, longer than 100 characters and starts with `%PDF-` |
| Mocks.MockPdf | backend/main.py:337-340 | the test-mode PDF bytes start with `%PDF-` and number more than 100 |
| Handlers.StoreUpload | backend/main.py:214-222 | success exactly when the id holds no NUL, the directory is not a file and `input.jpg` not a directory; then `input.jpg` holds the upload; only session paths change |
| Handlers.UploadFile | backend/main.py:210-222 | a canonical fresh id; the answer names it; the upload is stored under it; nothing outside the session changes |
| Handlers.ReplyResponse | backend/main.py:267-305 | 200 exactly when the model returned non-empty text, and then the cleaned text; otherwise 500 with the "Gemini API error: " prefix |
| Handlers.GenerateLatex | backend/main.py:225-305 | the mock in test mode; 500 without a key; guard errors, including the `ValueError` of a NUL in the id; 404 without an image; 500 for a directory at `input.jpg`; 500 without a prompt; with image and prompt, the model sees the stored image and the stripped prompt and the response is what its reply gives; the 200 text is the cleaned reply |
| Handlers.GenerateForSession | backend/main.py:246-305 | past the key check: the guard's three errors by case; 404 without an image; 500 for a directory at `input.jpg` or a missing prompt; the model is called only with the stored image and the stripped prompt, and the response is what its reply gives; only the session directory changes |
| Handlers.GenerateInDir | backend/main.py:250-305 | inside a granted directory: 404 when the image is absent, `IsADirectoryError` for a directory, 500 without a prompt, else the model call with the image's content and the stripped prompt; the file system is untouched |
| Handlers.GuardCases | backend/main.py:72-80 | for a handler's temporary root, the guard's four outcomes: invalid id, NUL in the id, a file at the directory, or the directory created or kept |
| Handlers.TexSource | backend/main.py:325-332 | the text written to `output.tex` is `clean_latex(latex)` |
| Handlers.RemoveQuietly | backend/main.py:357-362 | a removal failure is swallowed; otherwise the path is gone; nothing else changes |
| Handlers.MockCompile | backend/main.py:334-343 | the mock PDF is written and success reported, unless a directory stands at the PDF path, which gives `IsADirectoryError` and no change |
| Handlers.RunCompiler | backend/main.py:345-374 | the compiler runs exactly when the source is a file and the directory a directory; a non-zero exit returns stderr and keeps the source; a zero exit removes the source and succeeds exactly when the PDF exists |
| Handlers.CompilePdf | backend/main.py:316-374 | guard errors, including the `ValueError` of a NUL in the id; `IsADirectoryError` for a directory at `output.tex`, and in test mode for one at `output.pdf`, with no compiler call; the compiler sees the fixed argv and the cleaned source; success names a PDF that exists; only the directory, `output.tex` and `output.pdf` change, so `input.jpg` survives |
| Handlers.CompileGranted | backend/main.py:321-374 | after the guard created the directory: `IsADirectoryError` for a directory at `output.tex`, and in test mode at `output.pdf`; the compiler sees the fixed argv on the session's paths and the cleaned source; success names a PDF that exists; only the directory, `output.tex` and `output.pdf` change |
| Handlers.CompileInDir | backend/main.py:325-374 | the cleaned source is written first, and a directory at `output.tex` stops the request with `IsADirectoryError` and no change; in test mode a directory at `output.pdf` does the same after the write; only `output.tex` and `output.pdf` change |
| Handlers.RenderPdf | backend/main.py:377-391 | guard errors, including the `ValueError` of a NUL in the id; 404 "PDF not found" exactly when the id passes and the PDF is absent; otherwise the file is served as `mathecheck-worksheet.pdf` |
| Handlers.RenderGranted | backend/main.py:382-391 | after the guard created the directory: 404 exactly when the PDF is absent, the download exactly when it is a file, with its content; a directory there is a server error; nothing else changes |
| Workflows.GuardOnUsable | backend/main.py:72-80 | on a usable session the guard creates or keeps the directory and changes nothing else |
| Workflows.CompileInTestMode | backend/main.py:329-343 | in test mode the cleaned source and the mock PDF are written and success is reported without a compiler call |
| Workflows.CompileFailureKeepsSource | backend/main.py:346-355 | a non-zero exit returns stderr and leaves the source on disk |
| Workflows.CompileSuccessRemovesSource | backend/main.py:346-374 | a zero exit removes the source; success exactly when the PDF exists, "PDF not generated" otherwise |
| Workflows.CompileKeepsDir | backend/main.py:322 | the session directory stays a directory through `compile_pdf` |
| Workflows.SecondCompileWins | backend/main.py:331-332 | in test mode, of two compilations the second one's source is on disk |
| Workflows.UsableAfterCompile | backend/main.py:345-374 | a compilation that exits with status 0 and writes a PDF leaves the session usable: no file at the directory, no directory at any of its three files |
| Workflows.InputOutsideCompileFrame | backend/main.py:316-374 | `input.jpg` keeps its kind through anything that changes only the directory, `output.tex` and `output.pdf` |
| Workflows.SecondRealCompileWins | backend/main.py:345-391 | of two compilations whose compiler exits with status 0 and writes a PDF, the second reports success, compiles its own cleaned source, and its PDF is the one `render_pdf` serves |
| Workflows.StaleInDir | backend/main.py:345-374 | in the session directory, a zero exit without a new PDF reports success for the PDF already there, which stays as it was |
| Workflows.StalePdfServed | backend/main.py:345-391 | a zero exit without a new PDF, where an earlier PDF exists, reports success and `render_pdf` serves the earlier PDF |
| Workflows.GenerateBeforeUpload | backend/main.py:246-252 | before any upload, 404 "Image not found" and no model call |
| Workflows.RenderBeforeCompile | backend/main.py:383-387 | before any compilation, 404 "PDF not found" |
| Workflows.CompileWithoutUpload | backend/main.py:322-343 | in test mode, compilation without an upload succeeds |
| Workflows.StoreOnUsable | backend/main.py:214-222 | on a usable session the upload creates the directory and `input.jpg`, nothing else |
| Workflows.GenerateWithImage | backend/main.py:246-297 | after an upload the model sees the stored image and the stripped prompt |
| Workflows.ModelToPdf | backend/tests/test_api.py:54-61 | upload, generate, compile, render: the model sees the upload, the client gets the cleaned answer, compiling it runs the compiler on exactly that text, and the PDF it writes is what is served |
| Workflows.TestModeFlow | backend/tests/test_api.py:54-61 | in test mode: a fresh id, the mock LaTeX, a compile without a compiler call, and the mock PDF served |

## Left out

- FileSystem: paths are compared as strings. There is no resolution of `.` or `..` and no
  symbolic links. Two path strings that name one directory are two entries of the model.
  `Paths.Resolved` and `Session.DistinctIdsShareDirectory` show where this matters.
- FileSystem: parent directories are not tracked. Writing a file needs no parent directory,
  and a file at a prefix of a path does not make the path unusable.
- Session.GetSecureTempDir: ancestors are not modelled. If `<tempdir>/schulaufgabe`, or any
  intermediate directory of an id that contains `/`, is a file, `os.makedirs` raises
  `NotADirectoryError`. The model still succeeds in that case. The directories `makedirs`
  creates on the way (`<tempdir>/schulaufgabe` on first use, and the intermediate directories
  of such an id) are not recorded, and the frame mentions only the session directory.
- FileSystem.WriteFile, FileSystem.ReadFile and FileSystem.RemoveFile do not check for a NUL in
  the path. The handlers only hand them a file name joined to a directory that
  `FileSystem.MakeDirs` accepted, and such a path holds no NUL.
- Handlers: operating-system errors other than a file in the way of a directory
  (`FileExistsError`) and a directory in the way of a file (`IsADirectoryError`) are not
  modelled. This covers missing permissions and a full disk.
- Handlers: encoding failures when `output.tex` is written in text mode are not modelled: lone
  surrogates, or characters the locale's encoding cannot represent. Nor are decoding failures of
  the prompt file beyond "unreadable".
- PyText.FoldAscii: `re.IGNORECASE` is modelled as ASCII case folding. This is exact for the
  letters of "latex" (l, a, t, e, x) under Python's Unicode matching, because no other character
  folds to them. It is not a general model of Unicode case folding.
- Metrics and logging: the Prometheus counters, gauges and histograms, the `/metrics` endpoint
  body, the request middleware and every `logging` call have no effect on any response.
- `load_dotenv`: the environment is a parameter, taken as already loaded. In the source only
  `generate_latex` (`backend/main.py:231`) and `verify_prometheus_auth` (`backend/main.py:147`)
  load `.env`. `compile_pdf` reads `TEST_MODE` at `backend/main.py:329` without loading it, and
  `render_pdf` loads nothing. So a `TEST_MODE` set only in `.env` reaches `compile_pdf` only
  after one of the other two has run in the same process. The model gives all handlers the same
  environment.
- Request validation: FastAPI's 422 answer for a missing or mistyped body field is not
  modelled. The handlers start from parsed parameters, and the guard's `isinstance` check is
  kept as `Session.Arg`.
- MetricsAuth.VerifyPrometheusAuth: the `WWW-Authenticate: Basic` header on the 401 response
  is not modelled.
- The model client: `genai.configure`, the model name and the request encoding are not
  modelled. The model is an oracle from the request to a `ModelReply`. The response's `repr` in
  the error text is part of the oracle's answer.
- Tectonic: what tectonic does with the source is an oracle, and so is the content of the PDF
  it writes. The `--outdir` directory is where the model puts that PDF.
- Concurrency: the handlers are `async`, but requests are modelled one at a time. Two requests
  on the same session can interleave in the real server.
- The CORS middleware, the static file mount and the health endpoint are not part of this
  model.

=== FILE: auth.dfy ===
/**
  `verify_prometheus_auth`: HTTP Basic credentials for the metrics endpoints are checked
  against `METRICS_USERNAME` and `METRICS_PASSWORD` from the environment with
  `secrets.compare_digest`.
*/
module MetricsAuth {
  import opened Wrappers
  import opened Octets
  import opened Environment

  const UsernameVar: string := "METRICS_USERNAME"
  const PasswordVar: string := "METRICS_PASSWORD"

  datatype Credentials = Credentials(username: string, password: string)

  datatype AuthResult =
    | Authorized(credentials: Credentials)
    | Rejected(status: int, detail: string)
    | Crashed(error: string)

  const ConfigDetail: string := "Server configuration error: Metrics authentication not properly configured"
  const WrongDetail: string := "Incorrect username or password"

  /** `secrets.compare_digest` on two `str`s: equality, or `TypeError` if either is not ASCII. */
  function CompareDigest(a: string, b: string): (r: Result<bool, string>)
    ensures r.Success? <==> IsAscii(a) && IsAscii(b)
    ensures r.Success? ==> (r.value <==> a == b)
  {
    if IsAscii(a) && IsAscii(b) then Success(a == b)
    else Failure("comparing strings with non-ASCII characters is not supported")
  }

  function VerifyPrometheusAuth(env: Env, creds: Credentials): (r: AuthResult)
    ensures r == Rejected(500, ConfigDetail) <==> !IsSetNonEmpty(env, UsernameVar) || !IsSetNonEmpty(env, PasswordVar)
    ensures r.Authorized? <==>
      IsSetNonEmpty(env, UsernameVar) && IsSetNonEmpty(env, PasswordVar)
      && creds.username == env[UsernameVar] && creds.password == env[PasswordVar]
      && IsAscii(creds.username) && IsAscii(creds.password)
    ensures r.Authorized? ==> r.credentials == creds
    ensures r.Crashed? <==>
      IsSetNonEmpty(env, UsernameVar) && IsSetNonEmpty(env, PasswordVar)
      && !(IsAscii(creds.username) && IsAscii(env[UsernameVar]) && IsAscii(creds.password) && IsAscii(env[PasswordVar]))
    ensures r.Rejected? ==> r == Rejected(500, ConfigDetail) || r == Rejected(401, WrongDetail)
  {
    if !IsSetNonEmpty(env, UsernameVar) || !IsSetNonEmpty(env, PasswordVar) then
      Rejected(500, ConfigDetail)
    else
      match CompareDigest(creds.username, env[UsernameVar])
      case Failure(e) => Crashed(e)
      case Success(userOk) =>
        match CompareDigest(creds.password, env[PasswordVar])
        case Failure(e) => Crashed(e)
        case Success(passOk) =>
          if !(userOk && passOk) then Rejected(401, WrongDetail) else Authorized(creds)
  }

  /** Only the two metrics variables matter: environments that agree on them decide alike. */
  lemma AuthDependsOnlyOnMetricsVars(env1: Env, env2: Env, creds: Credentials)
    requires UsernameVar in env1 <==> UsernameVar in env2
    requires PasswordVar in env1 <==> PasswordVar in env2
    requires UsernameVar in env1 ==> env1[UsernameVar] == env2[UsernameVar]
    requires PasswordVar in env1 ==> env1[PasswordVar] == env2[PasswordVar]
    ensures VerifyPrometheusAuth(env1, creds) == VerifyPrometheusAuth(env2, creds)
  {
  }

  /** The configured credentials themselves are accepted whenever they are ASCII. */
  lemma ConfiguredCredentialsAccepted(env: Env)
    requires IsSetNonEmpty(env, UsernameVar) && IsSetNonEmpty(env, PasswordVar)
    requires IsAscii(env[UsernameVar]) && IsAscii(env[PasswordVar])
    ensures VerifyPrometheusAuth(env, Credentials(env[UsernameVar], env[PasswordVar])).Authorized?
  {
  }
}

=== FILE: clean_latex.dfy ===
/**
  `clean_latex`: the sanitiser applied to the model's transcription (and again to the markup a
  client submits for compilation). It strips surrounding whitespace, deletes every
  case-insensitive "```latex", deletes every remaining "```", and strips again.
*/
module Latex {
  import opened PyText

  /** The opening fence of a fenced LaTeX code block, matched case-insensitively. */
  const LatexFence: string := "```latex"

  /** The generic code fence. */
  const Fence: string := "```"

  /** Number of backticks at the start of `s`. */
  function LeadingTicks(s: string): (n: nat)
    ensures n <= |s|
    ensures forall k :: 0 <= k < n ==> s[k] == '`'
    ensures n < |s| ==> s[n] != '`'
    decreases |s|
  {
    if s != [] && s[0] == '`' then 1 + LeadingTicks(s[1..]) else 0
  }

  /** Three backticks start at position `i` of `s`. */
  predicate FenceAt(s: string, i: int) {
    0 <= i && i + 3 <= |s| && s[i] == '`' && s[i + 1] == '`' && s[i + 2] == '`'
  }

  /** `FenceAt` is the match of `Fence`, spelled out character by character. */
  lemma FenceAtIsMatch(s: string, i: int)
    ensures MatchesAt(s, i, Fence, false) <==> FenceAt(s, i)
  {
    if FenceAt(s, i) {
      forall j | 0 <= j < 3 ensures SameChar(s[i + j], Fence[j], false) {
      }
    }
    if MatchesAt(s, i, Fence, false) {
      assert SameChar(s[i + 0], Fence[0], false);
      assert SameChar(s[i + 1], Fence[1], false);
      assert SameChar(s[i + 2], Fence[2], false);
    }
  }

  /** No three consecutive backticks anywhere in `s`. */
  predicate FenceFree(s: string) {
    forall i :: 0 <= i <= |s| - 3 ==> !FenceAt(s, i)
  }

  /** `FenceFree` is the absence of `Fence`. */
  lemma NoFenceIff(s: string)
    ensures NoMatch(s, Fence, false) <==> FenceFree(s)
  {
    forall i | 0 <= i <= |s| - 3 ensures MatchesAt(s, i, Fence, false) <==> FenceAt(s, i) {
      FenceAtIsMatch(s, i);
    }
  }

  /** Prepending one character: a backtick extends the leading run, anything else ends it. */
  lemma LeadingTicksCons(c: char, t: string)
    ensures LeadingTicks([c] + t) == if c == '`' then 1 + LeadingTicks(t) else 0
  {
    assert ([c] + t)[1..] == t;
  }

  /**
    Prepending a character to a fence-free text keeps it fence-free, unless the character is a
    backtick and the text already starts with two of them.
  */
  lemma ConsNoFence(c: char, t: string)
    requires FenceFree(t)
    requires c == '`' ==> LeadingTicks(t) < 2
    ensures FenceFree([c] + t)
  {
    var r := [c] + t;
    forall i | 0 <= i <= |r| - 3 ensures !FenceAt(r, i) {
      if i == 0 {
        assert r[0] == c && r[1] == t[0] && r[2] == t[1];
      } else {
        assert r[i] == t[i - 1] && r[i + 1] == t[i] && r[i + 2] == t[i + 1];
        assert !FenceAt(t, i - 1);
      }
    }
  }

  /** `DeleteAll` of "```", one step: a fence at the front is dropped. */
  lemma DeleteFenceStepMatch(s: string)
    requires FenceAt(s, 0)
    ensures DeleteAll(s, Fence, false) == DeleteAll(s[3..], Fence, false)
    ensures LeadingTicks(s) == 3 + LeadingTicks(s[3..])
  {
    FenceAtIsMatch(s, 0);
    var t := s[3..];
    assert s == [s[0]] + ([s[1]] + ([s[2]] + t));
    LeadingTicksCons(s[2], t);
    LeadingTicksCons(s[1], [s[2]] + t);
    LeadingTicksCons(s[0], [s[1]] + ([s[2]] + t));
  }

  /** `DeleteAll` of "```", one step: without a fence at the front the first character is kept. */
  lemma DeleteFenceStepSkip(s: string)
    requires |s| >= 3 && !FenceAt(s, 0)
    ensures DeleteAll(s, Fence, false) == [s[0]] + DeleteAll(s[1..], Fence, false)
    ensures LeadingTicks(s) == if s[0] == '`' then 1 + LeadingTicks(s[1..]) else 0
    ensures LeadingTicks(s) < 3
  {
    FenceAtIsMatch(s, 0);
    assert s == [s[0]] + s[1..];
    LeadingTicksCons(s[0], s[1..]);
  }

  /** Arithmetic used for the length of a backtick run. */
  lemma ModThree(k: nat)
    ensures (3 + k) % 3 == k % 3
    ensures k < 3 ==> k % 3 == k
  {
  }

  /**
    Deleting "```" leaves no "```" behind: a deletion removes backticks from inside one run of
    backticks, so runs never merge, and a run of `k` backticks shrinks to `k % 3`.
  */
  lemma {:induction false} DeleteFenceRuns(s: string)
    ensures FenceFree(DeleteAll(s, Fence, false))
    ensures LeadingTicks(DeleteAll(s, Fence, false)) == LeadingTicks(s) % 3
    decreases |s|
  {
    var r := DeleteAll(s, Fence, false);
    if |s| < 3 {
      assert r == s;
      ModThree(LeadingTicks(s));
    } else if FenceAt(s, 0) {
      DeleteFenceStepMatch(s);
      DeleteFenceRuns(s[3..]);
      var k := LeadingTicks(s[3..]);
      ModThree(k);
      assert LeadingTicks(r) == k % 3;
    } else {
      var rt := DeleteAll(s[1..], Fence, false);
      DeleteFenceStepSkip(s);
      DeleteFenceRuns(s[1..]);
      assert r == [s[0]] + rt;
      LeadingTicksCons(s[0], rt);
      if s[0] == '`' {
        var k := LeadingTicks(s[1..]);
        ModThree(k);
        assert k < 2;
        ModThree(1 + k);
        assert LeadingTicks(r) == 1 + k == LeadingTicks(s);
      } else {
        assert LeadingTicks(r) == 0 == LeadingTicks(s);
      }
      ConsNoFence(s[0], rt);
    }
  }

  /** After step three of `clean_latex` no "```" is left. */
  lemma DeleteFenceLeavesNone(s: string)
    ensures NoMatch(DeleteAll(s, Fence, false), Fence, false)
  {
    DeleteFenceRuns(s);
    NoFenceIff(DeleteAll(s, Fence, false));
  }

  /** Where "```" does not occur, "```latex" cannot occur in any letter case. */
  lemma NoFenceNoLatexFence(s: string)
    requires NoMatch(s, Fence, false)
    ensures NoMatch(s, LatexFence, true)
  {
    forall i | 0 <= i <= |s| - |LatexFence| ensures !MatchesAt(s, i, LatexFence, true) {
      FenceAtIsMatch(s, i);
      assert SameChar(s[i + 0], LatexFence[0], true) ==> s[i] == '`';
      assert SameChar(s[i + 1], LatexFence[1], true) ==> s[i + 1] == '`';
      assert SameChar(s[i + 2], LatexFence[2], true) ==> s[i + 2] == '`';
    }
  }

  /** Python's `clean_latex`: the result is trimmed and holds no code fence at all. */
  function CleanLatex(latex: string): (r: string)
    ensures IsTrimmed(r)
    ensures NoMatch(r, Fence, false)
  {
    var stripped := Strip(latex);
    var noLatexFence := DeleteAll(stripped, LatexFence, true);
    var noFence := DeleteAll(noLatexFence, Fence, false);
    DeleteFenceLeavesNone(noLatexFence);
    StripKeepsNoMatch(noFence, Fence, false);
    Strip(noFence)
  }

  /** A trimmed text without "```" is a fixed point of `CleanLatex`. */
  lemma CleanLatexKeepsClean(t: string)
    requires IsTrimmed(t) && NoMatch(t, Fence, false)
    ensures CleanLatex(t) == t
  {
    StripTrimmed(t);
    NoFenceNoLatexFence(t);
    DeleteAllNoMatch(t, LatexFence, true);
    DeleteAllNoMatch(t, Fence, false);
  }

  /** The fixed points of `CleanLatex` are exactly the trimmed texts without "```". */
  lemma CleanLatexFixedPoints(t: string)
    ensures CleanLatex(t) == t <==> IsTrimmed(t) && NoMatch(t, Fence, false)
  {
    if IsTrimmed(t) && NoMatch(t, Fence, false) {
      CleanLatexKeepsClean(t);
    }
  }

  /** Cleaning twice is the same as cleaning once. */
  lemma CleanLatexIdempotent(s: string)
    ensures CleanLatex(CleanLatex(s)) == CleanLatex(s)
  {
    CleanLatexKeepsClean(CleanLatex(s));
  }

  /** A text in which "```" does not occur is only stripped: the fences passes find nothing. */
  lemma CleanLatexWithoutFences(s: string)
    requires NoMatch(s, Fence, false)
    ensures CleanLatex(s) == Strip(s)
  {
    var t := Strip(s);
    StripKeepsNoMatch(s, Fence, false);
    NoFenceNoLatexFence(t);
    DeleteAllNoMatch(t, LatexFence, true);
    DeleteAllNoMatch(t, Fence, false);
    StripTrimmed(t);
  }

  /** "```" cannot occur in a text without backticks. */
  lemma TickFreeHasNoFence(s: string)
    requires forall i :: 0 <= i < |s| ==> s[i] != '`'
    ensures NoMatch(s, Fence, false)
  {
    forall i | 0 <= i <= |s| - |Fence| ensures !MatchesAt(s, i, Fence, false) {
      assert s[i + 0] != Fence[0];
    }
  }

  /** No character of a backtick-free text can start either fence. */
  lemma TickFreeStartsNoFence(m: string)
    requires forall i :: 0 <= i < |m| ==> m[i] != '`'
    ensures forall k :: 0 <= k < |m| ==> !SameChar(m[k], LatexFence[0], true)
    ensures forall k :: 0 <= k < |m| ==> !SameChar(m[k], Fence[0], false)
  {
  }

  /** The "```latex" pass drops the opener of a "```latex" block and keeps the rest. */
  lemma LatexPassOnLatexBlock(m: string)
    requires forall i :: 0 <= i < |m| ==> m[i] != '`'
    ensures DeleteAll(LatexFence + m + Fence, LatexFence, true) == m + Fence
  {
    LatexPassOnBody(m);
    DeleteLeadingMatch(LatexFence, m + Fence, true);
    assert LatexFence + m + Fence == LatexFence + (m + Fence);
  }

  /** None of the three backticks of a bare opener starts a "```latex" match. */
  lemma PlainOpenerNoLatexFence(m: string)
    requires m != [] && m[0] != '`' && FoldAscii(m[0]) != 'l'
    ensures !MatchesAt(Fence + m, 0, LatexFence, true)
    ensures !MatchesAt((Fence + m)[1..], 0, LatexFence, true)
    ensures !MatchesAt((Fence + m)[2..], 0, LatexFence, true)
  {
    var s := Fence + m;
    assert s[3] == m[0];
    assert !SameChar(s[0 + 3], LatexFence[3], true);
    assert !SameChar(s[1..][0 + 2], LatexFence[2], true);
    assert !SameChar(s[2..][0 + 1], LatexFence[1], true);
  }

  /** The "```latex" pass leaves a backtick-free body followed by "```" alone. */
  lemma LatexPassOnBody(m: string)
    requires forall i :: 0 <= i < |m| ==> m[i] != '`'
    ensures DeleteAll(m + Fence, LatexFence, true) == m + Fence
  {
    TickFreeStartsNoFence(m);
    DeleteAllShortText(Fence, LatexFence, true);
    DeleteAllSkip(m, Fence, LatexFence, true);
  }

  /** The "```latex" pass leaves a bare "```" block alone when its body cannot extend the opener. */
  lemma LatexPassOnPlainBlock(m: string)
    requires forall i :: 0 <= i < |m| ==> m[i] != '`'
    requires m != [] && FoldAscii(m[0]) != 'l'
    ensures DeleteAll(Fence + m + Fence, LatexFence, true) == Fence + (m + Fence)
  {
    var s := Fence + (m + Fence);
    var t := m + Fence;
    assert Fence + m + Fence == s;
    LatexPassOnBody(m);
    PlainOpenerNoLatexFence(t);
    assert s[3..] == t;
    KeptThree(s, LatexFence, true);
  }

  /** Three characters in a row that start no match are kept, ahead of whatever the rest becomes. */
  lemma KeptThree(s: string, pat: string, ignoreCase: bool)
    requires pat != [] && |s| >= 3
    requires !MatchesAt(s, 0, pat, ignoreCase) && !MatchesAt(s[1..], 0, pat, ignoreCase)
    requires !MatchesAt(s[2..], 0, pat, ignoreCase)
    requires DeleteAll(s[3..], pat, ignoreCase) == s[3..]
    ensures DeleteAll(s, pat, ignoreCase) == s
  {
    assert s[2..][1..] == s[3..];
    DeleteAllKeepsFirst(s[2..], pat, ignoreCase);
    assert [s[2]] + s[3..] == s[2..];
    assert s[1..][1..] == s[2..];
    DeleteAllKeepsFirst(s[1..], pat, ignoreCase);
    assert [s[1]] + s[2..] == s[1..];
    DeleteAllKeepsFirst(s, pat, ignoreCase);
    assert [s[0]] + s[1..] == s;
  }

  /** The "```" pass strips the fences around a backtick-free body. */
  lemma FencePassOnBlock(m: string)
    requires forall i :: 0 <= i < |m| ==> m[i] != '`'
    ensures DeleteAll(m + Fence, Fence, false) == m
    ensures DeleteAll(Fence + (m + Fence), Fence, false) == m
  {
    TickFreeStartsNoFence(m);
    assert MatchesAt(Fence, 0, Fence, false) by {
      FenceAtIsMatch(Fence, 0);
    }
    DeleteAllFront(Fence, Fence, false);
    assert Fence[3..] == [];
    DeleteAllSkip(m, Fence, Fence, false);
    assert m + [] == m;
    var s := Fence + (m + Fence);
    assert MatchesAt(s, 0, Fence, false) by {
      FenceAtIsMatch(s, 0);
    }
    DeleteAllFront(s, Fence, false);
    assert s[3..] == m + Fence;
  }

  /**
    A fenced block, opened by "```latex" or by "```" and closed by "```", unwraps to its
    stripped body, provided the body holds no backtick (and, after a bare "```", does not begin
    with an `l` that could extend the opener into "```latex").
  */
  lemma UnwrapFencedBlock(open: string, m: string)
    requires open == LatexFence || open == Fence
    requires forall i :: 0 <= i < |m| ==> m[i] != '`'
    requires open == Fence ==> m != [] && FoldAscii(m[0]) != 'l'
    ensures CleanLatex(open + m + Fence) == Strip(m)
  {
    var s := open + m + Fence;
    assert IsTrimmed(s) by {
      assert s[0] == '`' && s[|s| - 1] == '`';
    }
    StripTrimmed(s);
    FencePassOnBlock(m);
    if open == LatexFence {
      LatexPassOnLatexBlock(m);
    } else {
      LatexPassOnPlainBlock(m);
    }
  }
}

=== FILE: clean_latex_examples.dfy ===
/** The examples of the backend's unit tests for `clean_latex`, proved of the model. */
module LatexExamples {
  import opened PyText
  import opened Latex

  /** The body of the first example holds no backtick. */
  lemma ExampleLatexBlockTickFree(m: string)
    requires m == "\n\\documentclass{article}\n"
    ensures forall i :: 0 <= i < |m| ==> m[i] != '`'
  {
  }

  /** The body of the first example strips to the document class line. */
  lemma ExampleLatexBlockBody(m: string)
    requires m == "\n\\documentclass{article}\n"
    ensures Strip(m) == "\\documentclass{article}"
  {
    var body := "\\documentclass{article}";
    assert m == "\n" + body + "\n";
    StripSurrounded("\n", body, "\n");
  }

  /** First example of the backend's unit tests: a "```latex" block. */
  lemma CleanLatexExampleLatexBlock(input: string)
    requires input == "```latex\n\\documentclass{article}\n```"
    ensures CleanLatex(input) == "\\documentclass{article}"
  {
    var m := "\n\\documentclass{article}\n";
    assert input == LatexFence + m + Fence;
    ExampleLatexBlockTickFree(m);
    ExampleLatexBlockBody(m);
    UnwrapFencedBlock(LatexFence, m);
  }

  /** The body of the second example holds no backtick and does not start with an `l`. */
  lemma ExamplePlainBlockTickFree(m: string)
    requires m == "\n\\begin{document}\nHello\n"
    ensures forall i :: 0 <= i < |m| ==> m[i] != '`'
    ensures m != [] && FoldAscii(m[0]) != 'l'
  {
  }

  /** The body of the second example strips to its two lines. */
  lemma ExamplePlainBlockBody(m: string)
    requires m == "\n\\begin{document}\nHello\n"
    ensures Strip(m) == "\\begin{document}\nHello"
  {
    var body := "\\begin{document}\nHello";
    assert m == "\n" + body + "\n";
    StripSurrounded("\n", body, "\n");
  }

  /** Second example of the backend's unit tests: a bare "```" block. */
  lemma CleanLatexExamplePlainBlock(input: string)
    requires input == "```\n\\begin{document}\nHello\n```"
    ensures CleanLatex(input) == "\\begin{document}\nHello"
  {
    var m := "\n\\begin{document}\nHello\n";
    assert input == Fence + m + Fence;
    ExamplePlainBlockTickFree(m);
    ExamplePlainBlockBody(m);
    UnwrapFencedBlock(Fence, m);
  }

  /** The third example is trimmed and free of backticks. */
  lemma ExampleNoMarkersShape(input: string)
    requires input == "\\section{Test}"
    ensures forall i :: 0 <= i < |input| ==> input[i] != '`'
    ensures IsTrimmed(input)
  {
  }

  /** Third example of the backend's unit tests: text without markers comes back unchanged. */
  lemma CleanLatexExampleNoMarkers(input: string)
    requires input == "\\section{Test}"
    ensures CleanLatex(input) == input
  {
    ExampleNoMarkersShape(input);
    TickFreeHasNoFence(input);
    CleanLatexWithoutFences(input);
    StripTrimmed(input);
  }

  /** Fourth example of the backend's unit tests: the empty text. */
  lemma CleanLatexExampleEmpty(input: string)
    requires input == ""
    ensures CleanLatex(input) == ""
  {
    CleanLatexKeepsClean(input);
  }

  /** Fifth example of the backend's unit tests: markers only. */
  lemma CleanLatexExampleMarkersOnly(input: string)
    requires input == "```latex```"
    ensures CleanLatex(input) == ""
  {
    assert input == LatexFence + "" + Fence;
    UnwrapFencedBlock(LatexFence, "");
    StripTrimmed("");
  }
}

=== FILE: env.dfy ===
/** The process environment, as `os.getenv` reads it after `load_dotenv()`. */
module Environment {
  import opened Wrappers

  /** Variable name to value. */
  type Env = map<string, string>

  /** `os.getenv(name)`: the value, or `None` when the variable is unset. */
  function GetEnv(env: Env, name: string): (r: Option<string>)
    ensures r.Some? <==> name in env
    ensures r.Some? ==> r.value == env[name]
  {
    if name in env then Some(env[name]) else None
  }

  /** Python truthiness of `os.getenv(name)`: set and not the empty string. */
  predicate IsSetNonEmpty(env: Env, name: string) {
    name in env && env[name] != ""
  }
}

=== FILE: filesystem.dfy ===
/**
  The part of the POSIX file system the handlers touch, as a flat map from path strings to
  nodes. Paths are compared as strings (no `.`/`..` resolution, no symbolic links) and parent
  directories are not tracked: `os.makedirs` records only the directory it is asked for.
*/
module FileSystem {
  import opened Wrappers
  import opened Octets

  /** What a file holds: raw bytes (`"wb"` mode) or text (`"w"` mode). */
  datatype Content = Bytes(bytes: seq<Byte>) | Text(text: string)

  datatype Node = Directory | File(content: Content)

  type Fs = map<string, Node>

  /**
    The `OSError` subclasses the handlers can meet, and the `ValueError` every `os` call raises
    for a path that holds a NUL character.
  */
  datatype FsError =
    | FileExists(path: string)
    | IsADirectory(path: string)
    | FileNotFound(path: string)
    | EmbeddedNull(path: string)

  /** A path the operating system can be handed: one without a NUL character. */
  predicate NulFree(p: string) {
    p == [] || (p[0] != '\0' && NulFree(p[1..]))
  }

  /** `NulFree` is the absence of the NUL character. */
  lemma {:induction false} NulFreeIff(p: string)
    ensures NulFree(p) <==> '\0' !in p
  {
    if p != [] {
      NulFreeIff(p[1..]);
      assert p == [p[0]] + p[1..];
    }
  }

  /** `os.path.exists`: true for files and directories alike. */
  predicate Exists(fs: Fs, p: string) {
    p in fs
  }

  /** `os.path.isfile`. */
  predicate IsFile(fs: Fs, p: string) {
    p in fs && fs[p].File?
  }

  /** `os.path.isdir`. */
  predicate IsDir(fs: Fs, p: string) {
    p in fs && fs[p].Directory?
  }

  /** `after` agrees with `before` on every path outside `paths`. */
  ghost predicate UnchangedExcept(before: Fs, after: Fs, paths: set<string>) {
    forall p :: p !in paths ==> (p in before <==> p in after) && (p in before ==> before[p] == after[p])
  }

  /** Creating a directory leaves every other path as it was. */
  lemma MakeDirKeepsOthers(fs: Fs, d: string, p: string)
    requires p != d
    ensures Exists(fs[d := Directory], p) <==> Exists(fs, p)
    ensures IsFile(fs[d := Directory], p) <==> IsFile(fs, p)
    ensures IsDir(fs[d := Directory], p) <==> IsDir(fs, p)
    ensures IsFile(fs, p) ==> fs[d := Directory][p] == fs[p]
  {
  }

  /** Writing a file at one path leaves the kind of every other path as it was. */
  lemma WriteKeepsOthers(fs: Fs, p: string, q: string, c: Content)
    ensures var fs' := fs[p := File(c)];
      IsFile(fs', p) && (p != q ==> (IsDir(fs', q) <==> IsDir(fs, q)) && (Exists(fs', q) <==> Exists(fs, q)))
  {
  }

  /** A path outside the frame keeps its kind. */
  lemma UnchangedOutside(before: Fs, after: Fs, paths: set<string>, p: string)
    requires UnchangedExcept(before, after, paths) && p !in paths
    ensures IsDir(after, p) <==> IsDir(before, p)
    ensures IsFile(after, p) <==> IsFile(before, p)
  {
  }

  /** Two steps that each change only their own paths together change only the union. */
  lemma UnchangedExceptTrans(a: Fs, b: Fs, c: Fs, s1: set<string>, s2: set<string>, s: set<string>)
    requires UnchangedExcept(a, b, s1) && UnchangedExcept(b, c, s2) && s1 + s2 <= s
    ensures UnchangedExcept(a, c, s)
  {
  }

  /** A frame may always be widened. */
  lemma UnchangedExceptWiden(a: Fs, b: Fs, s1: set<string>, s: set<string>)
    requires UnchangedExcept(a, b, s1) && s1 <= s
    ensures UnchangedExcept(a, b, s)
  {
  }

  /**
    `os.makedirs(p, exist_ok=True)`: an existing directory is fine, an existing file is an error.
    A NUL in the path makes `os.mkdir` raise `ValueError`, which `exist_ok` does not cover.
  */
  function MakeDirs(fs: Fs, p: string): (r: Result<Fs, FsError>)
    ensures r.Success? <==> NulFree(p) && !IsFile(fs, p)
    ensures r.Failure? ==> r.error == (if NulFree(p) then FileExists(p) else EmbeddedNull(p))
    ensures r.Success? ==> IsDir(r.value, p) && UnchangedExcept(fs, r.value, {p})
  {
    if !NulFree(p) then Failure(EmbeddedNull(p))
    else if IsFile(fs, p) then Failure(FileExists(p))
    else Success(fs[p := Directory])
  }

  /** `open(p, mode).write(c)`: creates or truncates a file; a directory at `p` is an error. */
  function WriteFile(fs: Fs, p: string, c: Content): (r: Result<Fs, FsError>)
    ensures r.Success? <==> !IsDir(fs, p)
    ensures r.Failure? ==> r.error == IsADirectory(p)
    ensures r.Success? ==> IsFile(r.value, p) && UnchangedExcept(fs, r.value, {p})
  {
    if IsDir(fs, p) then Failure(IsADirectory(p)) else Success(fs[p := File(c)])
  }

  /** `open(p, mode).read()`. */
  function ReadFile(fs: Fs, p: string): (r: Result<Content, FsError>)
    ensures r.Success? <==> IsFile(fs, p)
    ensures r.Failure? ==> r.error == (if p in fs then IsADirectory(p) else FileNotFound(p))
  {
    if p !in fs then Failure(FileNotFound(p))
    else match fs[p]
      case Directory => Failure(IsADirectory(p))
      case File(c) => Success(c)
  }

  /** `os.remove(p)`: only a file can be removed. */
  function RemoveFile(fs: Fs, p: string): (r: Result<Fs, FsError>)
    ensures r.Success? <==> IsFile(fs, p)
    ensures r.Failure? ==> r.error == (if p in fs then IsADirectory(p) else FileNotFound(p))
    ensures r.Success? ==> !Exists(r.value, p) && UnchangedExcept(fs, r.value, {p})
  {
    if IsFile(fs, p) then Success(fs - {p})
    else if p in fs then Failure(IsADirectory(p))
    else Failure(FileNotFound(p))
  }

  /** Reading a file back yields what was written to it. */
  lemma ReadAfterWrite(fs: Fs, p: string, c: Content)
    requires WriteFile(fs, p, c).Success?
    ensures ReadFile(WriteFile(fs, p, c).value, p) == Success(c)
  {
  }

  /** A write leaves what reads at every other path return unchanged. */
  lemma ReadOtherAfterWrite(fs: Fs, p: string, q: string, c: Content)
    requires WriteFile(fs, p, c).Success? && q != p
    ensures ReadFile(WriteFile(fs, p, c).value, q) == ReadFile(fs, q)
  {
  }

  /** Of two writes to the same path, the second one wins. */
  lemma LastWriteWins(fs: Fs, p: string, c1: Content, c2: Content)
    requires WriteFile(fs, p, c1).Success?
    ensures WriteFile(WriteFile(fs, p, c1).value, p, c2) == WriteFile(fs, p, c2)
  {
    assert fs[p := File(c1)][p := File(c2)] == fs[p := File(c2)];
  }

  /** `os.makedirs(p, exist_ok=True)` twice is the same as once. */
  lemma MakeDirsIdempotent(fs: Fs, p: string)
    requires MakeDirs(fs, p).Success?
    ensures MakeDirs(MakeDirs(fs, p).value, p) == MakeDirs(fs, p)
  {
    var once := fs[p := Directory];
    assert once[p := Directory] == once;
  }

  /** Removing a freshly written file restores every other path and leaves none at `p`. */
  lemma RemoveAfterWrite(fs: Fs, p: string, c: Content)
    requires WriteFile(fs, p, c).Success?
    ensures RemoveFile(WriteFile(fs, p, c).value, p) == Success(fs - {p})
  {
    var written := fs[p := File(c)];
    assert written - {p} == fs - {p};
  }
}

=== FILE: handlers.dfy ===
/**
  The four request handlers of the backend: `upload_file`, `generate_latex`, `compile_pdf` and
  `render_pdf`. Each is a function of the environment, the temporary root, the file system
  before the request and the request's parameters; what the outside world contributes (the
  random bytes of `uuid.uuid4()`, the prompt file, the language model's reply, the compiler's
  run) is a parameter too. The result records the response, the file system afterwards and the
  call made to the model or the compiler, if any.
*/
module Handlers {
  import opened Wrappers
  import opened Octets
  import opened Environment
  import opened PyText
  import opened Latex
  import Uuid
  import opened Paths
  import opened FileSystem
  import opened Session
  import opened Tectonic
  import opened Mocks

  /**
    `tempfile.gettempdir()`: a directory the interpreter has created a file in, so its path
    holds no NUL.
  */
  type TempDir = s: string | NulFree(s)

  /** The request-independent context: the environment and the temporary directory. */
  datatype Server = Server(env: Env, tempRoot: TempDir)

  /** `os.getenv("TEST_MODE", "0") == "1"`. */
  predicate TestMode(env: Env) {
    GetEnv(env, "TEST_MODE").GetOr("0") == "1"
  }

  /** `os.getenv("GOOGLE_API_KEY")` is truthy. */
  predicate ApiKeySet(env: Env) {
    IsSetNonEmpty(env, "GOOGLE_API_KEY")
  }

  /** The JSON bodies the handlers return with status 200. */
  datatype JsonBody =
    | SessionCreated(sessionId: string)
    | CompileSucceeded(pdfPath: string)
    | CompileFailed(error: string)

  datatype Response =
    | PlainText(status: int, text: string)
    | Json(body: JsonBody)
    | PdfDownload(path: string, mediaType: string, filename: string, content: Content)
    | ServerError(exception: string)  // an exception the handler does not catch: status 500

  /** The image, its MIME type and the stripped system prompt sent to the model. */
  datatype ModelRequest = ModelRequest(image: Content, mimeType: string, prompt: string)

  /** What `generate_content` did: raised, or returned a response whose `text` may be missing. */
  datatype ModelReply = Raised(message: string) | Replied(text: Option<string>, repr: string)

  datatype Call =
    | ModelCall(request: ModelRequest)
    | CompilerCall(argv: seq<string>, source: Content)

  datatype Outcome = Outcome(response: Response, fs: Fs, call: Option<Call>)

  const KeyMissing: string := "Gemini API key not set"
  const ImageMissing: string := "Image not found"
  const PromptMissing: string := "Prompt file error"
  const ModelErrorPrefix: string := "Gemini API error: "
  const NoLatexPrefix: string := "No LaTeX returned from Gemini API. Response: "
  const PdfNotGenerated: string := "PDF not generated"
  const PdfMissing: string := "PDF not found"
  const PdfMediaType: string := "application/pdf"
  const PdfFilename: string := "mathecheck-worksheet.pdf"
  const ImageMimeType: string := "image/jpeg"
  const EmbeddedNulError: string := "ValueError: embedded null byte"

  /** The paths of one session. */
  function InputPath(srv: Server, id: string): string { SessionFile(srv.tempRoot, id, InputName) }
  function TexPath(srv: Server, id: string): string { SessionFile(srv.tempRoot, id, TexName) }
  function PdfPath(srv: Server, id: string): string { SessionFile(srv.tempRoot, id, PdfName) }
  function Dir(srv: Server, id: string): string { SessionDir(srv.tempRoot, id) }

  /** The name of an exception the guard raises. */
  function GuardException(e: GuardError): string {
    match e
    case InvalidSessionId => "ValueError: Invalid session ID format"
    case MakeDirsFailed(EmbeddedNull(_)) => EmbeddedNulError
    case MakeDirsFailed(_) => "FileExistsError"
  }

  /** The guard's four outcomes for a request's session id, by case. */
  lemma GuardCases(srv: Server, fs: Fs, id: string)
    ensures !ValidSessionId(Str(id)) ==> GetSecureTempDir(fs, srv.tempRoot, Str(id)) == Failure(InvalidSessionId)
    ensures ValidSessionId(Str(id)) && !NulFree(id) ==>
      GetSecureTempDir(fs, srv.tempRoot, Str(id)) == Failure(MakeDirsFailed(EmbeddedNull(Dir(srv, id))))
    ensures ValidSessionId(Str(id)) && NulFree(id) && IsFile(fs, Dir(srv, id)) ==>
      GetSecureTempDir(fs, srv.tempRoot, Str(id)) == Failure(MakeDirsFailed(FileExists(Dir(srv, id))))
    ensures ValidSessionId(Str(id)) && NulFree(id) && !IsFile(fs, Dir(srv, id)) ==>
      GetSecureTempDir(fs, srv.tempRoot, Str(id)) == Success(Granted(Dir(srv, id), fs[Dir(srv, id) := Directory]))
  {
    NulFreeIff(srv.tempRoot);
    SessionDirNul(srv.tempRoot, id);
    NulFreeIff(id);
    NulFreeIff(Dir(srv, id));
  }

  /** A file inside the session directory is never the directory itself. */
  lemma SessionFileNotDir(root: string, id: string, name: string)
    requires name != [] && name[0] != '/'
    ensures SessionFile(root, id, name) != SessionDir(root, id)
  {
  }

  /** The three files of a session have distinct paths. */
  lemma SessionFilesDistinct(root: string, id: string)
    ensures SessionFile(root, id, InputName) != SessionFile(root, id, TexName)
    ensures SessionFile(root, id, TexName) != SessionFile(root, id, PdfName)
    ensures SessionFile(root, id, InputName) != SessionFile(root, id, PdfName)
  {
    var d := SessionDir(root, id);
    JoinLastChar(d, InputName);
    JoinLastChar(d, TexName);
    JoinLastChar(d, PdfName);
  }

  /** A joined path ends in the last character of the name joined on. */
  lemma JoinLastChar(a: string, b: string)
    requires b != []
    ensures |Join(a, b)| > 0 && Join(a, b)[|Join(a, b)| - 1] == b[|b| - 1]
  {
    var r := Join(a, b);
    assert r[|r| - 1] == r[|r| - |b|..][|b| - 1];
  }

  // ----- upload_file -----

  /** `upload_file` once the id is drawn: pass the guard, then store the upload as `input.jpg`. */
  function StoreUpload(srv: Server, fs: Fs, id: string, upload: seq<Byte>): (o: Outcome)
    requires ValidSessionId(Str(id))
    ensures o.call == None
    ensures UnchangedExcept(fs, o.fs, SessionPaths(srv.tempRoot, id))
    ensures o.response == Json(SessionCreated(id)) || o.response.ServerError?
    ensures o.response.Json? <==> NulFree(id) && !IsFile(fs, Dir(srv, id)) && !IsDir(fs, InputPath(srv, id))
    ensures o.response.Json? ==> IsDir(o.fs, Dir(srv, id)) && ReadFile(o.fs, InputPath(srv, id)) == Success(Bytes(upload))
  {
    SessionFileNotDir(srv.tempRoot, id, InputName);
    GuardCases(srv, fs, id);
    match GetSecureTempDir(fs, srv.tempRoot, Str(id))
    case Failure(e) =>
      UnchangedExceptWiden(fs, fs, {}, SessionPaths(srv.tempRoot, id));
      Outcome(ServerError(GuardException(e)), fs, None)
    case Success(g) =>
      UnchangedExceptWiden(fs, g.fs, {g.dir}, SessionPaths(srv.tempRoot, id));
      var input := Join(g.dir, InputName);
      match WriteFile(g.fs, input, Bytes(upload))
      case Failure(_) => Outcome(ServerError("IsADirectoryError"), g.fs, None)
      case Success(fs') =>
        UnchangedExceptTrans(fs, g.fs, fs', {g.dir}, {input}, SessionPaths(srv.tempRoot, id));
        Outcome(Json(SessionCreated(id)), fs', None)
  }

  /** `upload_file`: a fresh id from the random source, and the upload stored under it. */
  function UploadFile(srv: Server, fs: Fs, random: seq<Byte>, upload: seq<Byte>): (o: Outcome)
    requires |random| == 16
    ensures Uuid.IsCanonicalUuid(Uuid.NewSessionId(random))
    ensures o.call == None
    ensures UnchangedExcept(fs, o.fs, SessionPaths(srv.tempRoot, Uuid.NewSessionId(random)))
    ensures o.response == Json(SessionCreated(Uuid.NewSessionId(random))) || o.response.ServerError?
    ensures o.response.Json? <==>
      !IsFile(fs, Dir(srv, Uuid.NewSessionId(random))) && !IsDir(fs, InputPath(srv, Uuid.NewSessionId(random)))
    ensures o.response.Json? ==>
      IsDir(o.fs, Dir(srv, Uuid.NewSessionId(random)))
      && ReadFile(o.fs, InputPath(srv, Uuid.NewSessionId(random))) == Success(Bytes(upload))
  {
    NewSessionIdAccepted(fs, srv.tempRoot, random);
    StoreUpload(srv, fs, Uuid.NewSessionId(random), upload)
  }

  // ----- generate_latex -----

  /** How the handler turns the model's reply into a response (the `try` block and its `except`). */
  function ReplyResponse(reply: ModelReply): (r: Response)
    ensures r.PlainText?
    ensures r.status == 200 <==> reply.Replied? && reply.text.Some? && reply.text.value != ""
    ensures r.status != 200 ==> r.status == 500 && |r.text| >= |ModelErrorPrefix| && r.text[..|ModelErrorPrefix|] == ModelErrorPrefix
    ensures r.status == 200 ==> r.text == CleanLatex(reply.text.value)
  {
    match reply
    case Raised(message) => PlainText(500, ModelErrorPrefix + message)
    case Replied(text, repr) =>
      if text.None? || text.value == "" then PlainText(500, ModelErrorPrefix + NoLatexPrefix + repr)
      else PlainText(200, CleanLatex(text.value))
  }

  function GenerateLatex(srv: Server, fs: Fs, sessionId: string, promptFile: Option<string>, reply: ModelReply): (o: Outcome)
    ensures TestMode(srv.env) ==> o == Outcome(PlainText(200, MockLatex), fs, None)
    ensures !TestMode(srv.env) && !ApiKeySet(srv.env) ==> o == Outcome(PlainText(500, KeyMissing), fs, None)
    ensures !TestMode(srv.env) && ApiKeySet(srv.env) && !ValidSessionId(Str(sessionId)) ==>
      o == Outcome(ServerError(GuardException(InvalidSessionId)), fs, None)
    ensures (!TestMode(srv.env) && ApiKeySet(srv.env) && ValidSessionId(Str(sessionId)) && !NulFree(sessionId)) ==>
      o == Outcome(ServerError(EmbeddedNulError), fs, None)
    ensures (!TestMode(srv.env) && ApiKeySet(srv.env) && ValidSessionId(Str(sessionId)) && NulFree(sessionId)
             && IsFile(fs, Dir(srv, sessionId))) ==>
      o == Outcome(ServerError(GuardException(MakeDirsFailed(FileExists(Dir(srv, sessionId))))), fs, None)
    ensures (!TestMode(srv.env) && ApiKeySet(srv.env) && ValidSessionId(Str(sessionId)) && NulFree(sessionId)
             && !IsFile(fs, Dir(srv, sessionId)) && !Exists(fs, InputPath(srv, sessionId))) ==>
      o.response == PlainText(404, ImageMissing) && o.call == None
    ensures (!TestMode(srv.env) && ApiKeySet(srv.env) && ValidSessionId(Str(sessionId)) && NulFree(sessionId)
             && !IsFile(fs, Dir(srv, sessionId)) && IsDir(fs, InputPath(srv, sessionId))) ==>
      o.response == ServerError("IsADirectoryError") && o.call == None
    ensures (!TestMode(srv.env) && ApiKeySet(srv.env) && ValidSessionId(Str(sessionId)) && NulFree(sessionId)
             && !IsFile(fs, Dir(srv, sessionId)) && IsFile(fs, InputPath(srv, sessionId)) && promptFile.None?) ==>
      o.response == PlainText(500, PromptMissing) && o.call == None
    ensures (!TestMode(srv.env) && ApiKeySet(srv.env) && ValidSessionId(Str(sessionId)) && NulFree(sessionId)
             && !IsFile(fs, Dir(srv, sessionId)) && IsFile(fs, InputPath(srv, sessionId)) && promptFile.Some?) ==>
      o.call == Some(ModelCall(ModelRequest(fs[InputPath(srv, sessionId)].content, ImageMimeType, Strip(promptFile.value))))
      && o.response == ReplyResponse(reply)
    ensures o.call.Some? ==>
      !TestMode(srv.env) && ApiKeySet(srv.env) && ValidSessionId(Str(sessionId)) && promptFile.Some?
      && IsFile(fs, InputPath(srv, sessionId))
      && o.call.value == ModelCall(ModelRequest(fs[InputPath(srv, sessionId)].content, ImageMimeType, Strip(promptFile.value)))
      && o.response == ReplyResponse(reply)
    ensures o.response.PlainText? && o.response.status == 200 && !TestMode(srv.env) ==>
      o.call.Some? && o.response.text == CleanLatex(reply.text.value)
    ensures UnchangedExcept(fs, o.fs, {Dir(srv, sessionId)})
  {
    if TestMode(srv.env) then
      Outcome(PlainText(200, MockLatex), fs, None)
    else if !ApiKeySet(srv.env) then
      Outcome(PlainText(500, KeyMissing), fs, None)
    else
      GenerateForSession(srv, fs, sessionId, promptFile, reply)
  }

  /** `generate_latex` once the API key is known: the guard, then the image, prompt and model. */
  function GenerateForSession(srv: Server, fs: Fs, sessionId: string, promptFile: Option<string>, reply: ModelReply): (o: Outcome)
    ensures !ValidSessionId(Str(sessionId)) ==> o == Outcome(ServerError(GuardException(InvalidSessionId)), fs, None)
    ensures ValidSessionId(Str(sessionId)) && !NulFree(sessionId) ==> o == Outcome(ServerError(EmbeddedNulError), fs, None)
    ensures ValidSessionId(Str(sessionId)) && NulFree(sessionId) && IsFile(fs, Dir(srv, sessionId)) ==>
      o == Outcome(ServerError(GuardException(MakeDirsFailed(FileExists(Dir(srv, sessionId))))), fs, None)
    ensures ValidSessionId(Str(sessionId)) && NulFree(sessionId) && !IsFile(fs, Dir(srv, sessionId))
            && !Exists(fs, InputPath(srv, sessionId)) ==>
      o.response == PlainText(404, ImageMissing) && o.call == None
    ensures ValidSessionId(Str(sessionId)) && NulFree(sessionId) && !IsFile(fs, Dir(srv, sessionId))
            && IsDir(fs, InputPath(srv, sessionId)) ==>
      o.response == ServerError("IsADirectoryError") && o.call == None
    ensures ValidSessionId(Str(sessionId)) && NulFree(sessionId) && !IsFile(fs, Dir(srv, sessionId))
            && IsFile(fs, InputPath(srv, sessionId)) && promptFile.None? ==>
      o.response == PlainText(500, PromptMissing) && o.call == None
    ensures ValidSessionId(Str(sessionId)) && NulFree(sessionId) && !IsFile(fs, Dir(srv, sessionId))
            && IsFile(fs, InputPath(srv, sessionId)) && promptFile.Some? ==>
      o.call == Some(ModelCall(ModelRequest(fs[InputPath(srv, sessionId)].content, ImageMimeType, Strip(promptFile.value))))
      && o.response == ReplyResponse(reply)
    ensures o.call.Some? ==>
      ValidSessionId(Str(sessionId)) && NulFree(sessionId) && !IsFile(fs, Dir(srv, sessionId))
      && IsFile(fs, InputPath(srv, sessionId)) && promptFile.Some?
    ensures UnchangedExcept(fs, o.fs, {Dir(srv, sessionId)})
  {
    GuardCases(srv, fs, sessionId);
    match GetSecureTempDir(fs, srv.tempRoot, Str(sessionId))
    case Failure(e) => Outcome(ServerError(GuardException(e)), fs, None)
    case Success(g) =>
      var image := Join(g.dir, InputName);
      SessionFileNotDir(srv.tempRoot, sessionId, InputName);
      MakeDirKeepsOthers(fs, g.dir, image);
      GenerateInDir(g.fs, image, promptFile, reply)
  }

  /** `generate_latex` past the guard: read the image, then the prompt, then ask the model. */
  function GenerateInDir(fs: Fs, image: string, promptFile: Option<string>, reply: ModelReply): (o: Outcome)
    ensures o.fs == fs
    ensures !Exists(fs, image) ==> o == Outcome(PlainText(404, ImageMissing), fs, None)
    ensures IsDir(fs, image) ==> o == Outcome(ServerError("IsADirectoryError"), fs, None)
    ensures IsFile(fs, image) && promptFile.None? ==> o == Outcome(PlainText(500, PromptMissing), fs, None)
    ensures IsFile(fs, image) && promptFile.Some? ==>
      o.call == Some(ModelCall(ModelRequest(fs[image].content, ImageMimeType, Strip(promptFile.value))))
      && o.response == ReplyResponse(reply)
  {
    if !Exists(fs, image) then
      Outcome(PlainText(404, ImageMissing), fs, None)
    else
      match ReadFile(fs, image)
      case Failure(_) => Outcome(ServerError("IsADirectoryError"), fs, None)
      case Success(bytes) =>
        match promptFile
        case None => Outcome(PlainText(500, PromptMissing), fs, None)
        case Some(text) =>
          var request := ModelRequest(bytes, ImageMimeType, Strip(text));
          Outcome(ReplyResponse(reply), fs, Some(ModelCall(request)))
  }

  // ----- compile_pdf -----

  /** The compiler's PDF, written where it writes it; a directory in the way leaves none. */
  function Produce(fs: Fs, pdf: string, run: CompilerRun): (fs': Fs)
    ensures UnchangedExcept(fs, fs', {pdf})
    ensures run.Exited? && run.pdf.Some? && !IsDir(fs, pdf) ==> ReadFile(fs', pdf) == Success(run.pdf.value)
    ensures !(run.Exited? && run.pdf.Some?) ==> fs' == fs
  {
    if run.Exited? && run.pdf.Some? && WriteFile(fs, pdf, run.pdf.value).Success? then
      WriteFile(fs, pdf, run.pdf.value).value
    else fs
  }

  /** `os.remove(tex_path)` inside `try ... except Exception`: failure is only logged. */
  function RemoveQuietly(fs: Fs, p: string): (fs': Fs)
    ensures !IsDir(fs, p) ==> !Exists(fs', p)
    ensures UnchangedExcept(fs, fs', {p})
  {
    match RemoveFile(fs, p)
    case Success(f) => f
    case Failure(_) => fs
  }

  /** The non-test-mode tail of `compile_pdf`, once the TeX source is on disk. */
  function RunCompiler(fs: Fs, dir: string, tex: string, pdf: string, source: string, run: CompilerRun): (o: Outcome)
    ensures UnchangedExcept(fs, o.fs, {tex, pdf})
    ensures o.call.Some? ==> o.call.value == CompilerCall(TectonicArgv(tex, dir), Text(source))
    ensures o.call.Some? <==> IsFile(fs, tex) && IsDir(fs, dir)
    ensures o.response.Json? && o.response.body.CompileSucceeded? ==> o.response.body.pdfPath == pdf && Exists(o.fs, pdf)
    ensures run.Exited? && run.code != 0 && IsFile(fs, tex) && IsDir(fs, dir) && tex != pdf ==>
      o.response == Json(CompileFailed(run.stderr)) && ReadFile(o.fs, tex) == ReadFile(fs, tex)
    ensures run.Exited? && run.code == 0 && IsFile(fs, tex) && IsDir(fs, dir) ==>
      !Exists(o.fs, tex) && (o.response == Json(CompileSucceeded(pdf)) <==> Exists(o.fs, pdf))
      && (o.response != Json(CompileSucceeded(pdf)) ==> o.response == Json(CompileFailed(PdfNotGenerated)))
  {
    match RunTectonic(fs, tex, dir)
    case Failure(_) => Outcome(ServerError("ValueError"), fs, None)
    case Success(argv) =>
      var call := Some(CompilerCall(argv, Text(source)));
      var produced := Produce(fs, pdf, run);
      match Check(run)
      case OsError(message) => Outcome(ServerError(message), produced, call)
      case CalledProcessError(_, stderr) => Outcome(Json(CompileFailed(stderr)), produced, call)
      case Completed(_, _) =>
        var cleaned := RemoveQuietly(produced, tex);
        if Exists(cleaned, pdf) then Outcome(Json(CompileSucceeded(pdf)), cleaned, call)
        else Outcome(Json(CompileFailed(PdfNotGenerated)), cleaned, call)
  }

  /**
    What `compile_pdf` writes to `output.tex`: `clean_latex(latex).lstrip()`. The `lstrip` finds
    nothing to remove, since the cleaned text is already stripped.
  */
  function TexSource(latex: string): (source: string)
    ensures source == CleanLatex(latex)
  {
    StripTrimmed(CleanLatex(latex));
    LStrip(CleanLatex(latex))
  }

  /** The test-mode tail of `compile_pdf`: the mock PDF instead of a compiler run. */
  function MockCompile(fs: Fs, pdf: string): (o: Outcome)
    ensures o.call == None
    ensures UnchangedExcept(fs, o.fs, {pdf})
    ensures o.response == Json(CompileSucceeded(pdf)) <==> !IsDir(fs, pdf)
    ensures o.response == Json(CompileSucceeded(pdf)) ==> ReadFile(o.fs, pdf) == Success(Bytes(MockPdf()))
    ensures IsDir(fs, pdf) ==> o == Outcome(ServerError("IsADirectoryError"), fs, None)
  {
    match WriteFile(fs, pdf, Bytes(MockPdf()))
    case Failure(_) => Outcome(ServerError("IsADirectoryError"), fs, None)
    case Success(mocked) => Outcome(Json(CompileSucceeded(pdf)), mocked, None)
  }

  /** What follows the write of the TeX source: the mock PDF in test mode, the compiler otherwise. */
  function CompileWritten(env: Env, fs: Fs, dir: string, tex: string, pdf: string, source: string, run: CompilerRun): (o: Outcome)
    ensures UnchangedExcept(fs, o.fs, {tex, pdf})
    ensures o.call.Some? ==> !TestMode(env) && o.call.value == CompilerCall(TectonicArgv(tex, dir), Text(source))
    ensures o.response.Json? && o.response.body.CompileSucceeded? ==> o.response.body.pdfPath == pdf && Exists(o.fs, pdf)
    ensures TestMode(env) && IsDir(fs, pdf) ==> o == Outcome(ServerError("IsADirectoryError"), fs, None)
  {
    if TestMode(env) then
      var o := MockCompile(fs, pdf);
      UnchangedExceptWiden(fs, o.fs, {pdf}, {tex, pdf});
      o
    else
      RunCompiler(fs, dir, tex, pdf, source, run)
  }

  /** `compile_pdf` after the guard: write the cleaned source, then mock or run the compiler. */
  function CompileInDir(env: Env, fs: Fs, dir: string, tex: string, pdf: string, latex: string, run: CompilerRun): (o: Outcome)
    ensures UnchangedExcept(fs, o.fs, {tex, pdf})
    ensures o.call.Some? ==> !TestMode(env) && o.call.value == CompilerCall(TectonicArgv(tex, dir), Text(CleanLatex(latex)))
    ensures o.response.Json? && o.response.body.CompileSucceeded? ==> o.response.body.pdfPath == pdf && Exists(o.fs, pdf)
    ensures IsDir(fs, tex) ==> o == Outcome(ServerError("IsADirectoryError"), fs, None)
    ensures TestMode(env) && tex != pdf && !IsDir(fs, tex) && IsDir(fs, pdf) ==>
      o.response == ServerError("IsADirectoryError") && o.call == None
  {
    var source := TexSource(latex);
    match WriteFile(fs, tex, Text(source))
    case Failure(_) => Outcome(ServerError("IsADirectoryError"), fs, None)
    case Success(written) =>
      WriteKeepsOthers(fs, tex, pdf, Text(source));
      var o := CompileWritten(env, written, dir, tex, pdf, source, run);
      UnchangedExceptTrans(fs, written, o.fs, {tex}, {tex, pdf}, {tex, pdf});
      o
  }

  function CompilePdf(srv: Server, fs: Fs, sessionId: string, latex: string, run: CompilerRun): (o: Outcome)
    ensures !ValidSessionId(Str(sessionId)) ==> o == Outcome(ServerError(GuardException(InvalidSessionId)), fs, None)
    ensures ValidSessionId(Str(sessionId)) && !NulFree(sessionId) ==> o == Outcome(ServerError(EmbeddedNulError), fs, None)
    ensures ValidSessionId(Str(sessionId)) && NulFree(sessionId) && IsFile(fs, Dir(srv, sessionId)) ==>
      o == Outcome(ServerError(GuardException(MakeDirsFailed(FileExists(Dir(srv, sessionId))))), fs, None)
    ensures ValidSessionId(Str(sessionId)) && NulFree(sessionId) && !IsFile(fs, Dir(srv, sessionId))
            && IsDir(fs, TexPath(srv, sessionId)) ==>
      o == Outcome(ServerError("IsADirectoryError"), fs[Dir(srv, sessionId) := Directory], None)
    ensures TestMode(srv.env) && ValidSessionId(Str(sessionId)) && NulFree(sessionId) && !IsFile(fs, Dir(srv, sessionId))
            && !IsDir(fs, TexPath(srv, sessionId)) && IsDir(fs, PdfPath(srv, sessionId)) ==>
      o.response == ServerError("IsADirectoryError") && o.call == None
    ensures UnchangedExcept(fs, o.fs, {Dir(srv, sessionId), TexPath(srv, sessionId), PdfPath(srv, sessionId)})
    ensures o.call.Some? ==>
      !TestMode(srv.env)
      && o.call.value == CompilerCall(TectonicArgv(TexPath(srv, sessionId), Dir(srv, sessionId)), Text(CleanLatex(latex)))
    ensures o.response.Json? && o.response.body.CompileSucceeded? ==>
      o.response.body.pdfPath == PdfPath(srv, sessionId) && Exists(o.fs, PdfPath(srv, sessionId))
  {
    GuardCases(srv, fs, sessionId);
    match GetSecureTempDir(fs, srv.tempRoot, Str(sessionId))
    case Failure(e) => Outcome(ServerError(GuardException(e)), fs, None)
    case Success(_) => CompileGranted(srv, fs, sessionId, latex, run)
  }

  /** `compile_pdf` once the guard has created the session directory. */
  function CompileGranted(srv: Server, fs: Fs, sessionId: string, latex: string, run: CompilerRun): (o: Outcome)
    ensures UnchangedExcept(fs, o.fs, {Dir(srv, sessionId), TexPath(srv, sessionId), PdfPath(srv, sessionId)})
    ensures IsDir(fs, TexPath(srv, sessionId)) ==>
      o == Outcome(ServerError("IsADirectoryError"), fs[Dir(srv, sessionId) := Directory], None)
    ensures TestMode(srv.env) && !IsDir(fs, TexPath(srv, sessionId)) && IsDir(fs, PdfPath(srv, sessionId)) ==>
      o.response == ServerError("IsADirectoryError") && o.call == None
    ensures o.call.Some? ==>
      !TestMode(srv.env)
      && o.call.value == CompilerCall(TectonicArgv(TexPath(srv, sessionId), Dir(srv, sessionId)), Text(CleanLatex(latex)))
    ensures o.response.Json? && o.response.body.CompileSucceeded? ==>
      o.response.body.pdfPath == PdfPath(srv, sessionId) && Exists(o.fs, PdfPath(srv, sessionId))
  {
    var dir, tex, pdf := Dir(srv, sessionId), TexPath(srv, sessionId), PdfPath(srv, sessionId);
    var granted := fs[dir := Directory];
    SessionFilesDistinct(srv.tempRoot, sessionId);
    SessionFileNotDir(srv.tempRoot, sessionId, TexName);
    SessionFileNotDir(srv.tempRoot, sessionId, PdfName);
    MakeDirKeepsOthers(fs, dir, tex);
    MakeDirKeepsOthers(fs, dir, pdf);
    var o := CompileInDir(srv.env, granted, dir, tex, pdf, latex, run);
    UnchangedExceptTrans(fs, granted, o.fs, {dir}, {tex, pdf}, {dir, tex, pdf});
    o
  }

  // ----- render_pdf -----

  function RenderPdf(srv: Server, fs: Fs, sessionId: string): (o: Outcome)
    ensures !ValidSessionId(Str(sessionId)) ==> o == Outcome(ServerError(GuardException(InvalidSessionId)), fs, None)
    ensures o.call == None
    ensures UnchangedExcept(fs, o.fs, {Dir(srv, sessionId)})
    ensures ValidSessionId(Str(sessionId)) && !NulFree(sessionId) ==> o == Outcome(ServerError(EmbeddedNulError), fs, None)
    ensures o.response == PlainText(404, PdfMissing) <==>
      ValidSessionId(Str(sessionId)) && NulFree(sessionId) && !IsFile(fs, Dir(srv, sessionId)) && !Exists(fs, PdfPath(srv, sessionId))
    ensures o.response.PdfDownload? <==>
      ValidSessionId(Str(sessionId)) && NulFree(sessionId) && !IsFile(fs, Dir(srv, sessionId)) && IsFile(fs, PdfPath(srv, sessionId))
    ensures o.response.PdfDownload? ==>
      o.response == PdfDownload(PdfPath(srv, sessionId), PdfMediaType, PdfFilename, fs[PdfPath(srv, sessionId)].content)
  {
    GuardCases(srv, fs, sessionId);
    match GetSecureTempDir(fs, srv.tempRoot, Str(sessionId))
    case Failure(e) => Outcome(ServerError(GuardException(e)), fs, None)
    case Success(_) => RenderGranted(srv, fs, sessionId)
  }

  /** `render_pdf` once the guard has created the session directory: the PDF, or 404 when there is none. */
  function RenderGranted(srv: Server, fs: Fs, sessionId: string): (o: Outcome)
    ensures o.fs == fs[Dir(srv, sessionId) := Directory] && o.call == None
    ensures o.response == PlainText(404, PdfMissing) <==> !Exists(fs, PdfPath(srv, sessionId))
    ensures o.response.PdfDownload? <==> IsFile(fs, PdfPath(srv, sessionId))
    ensures IsFile(fs, PdfPath(srv, sessionId)) ==>
      o.response == PdfDownload(PdfPath(srv, sessionId), PdfMediaType, PdfFilename, fs[PdfPath(srv, sessionId)].content)
    ensures IsDir(fs, PdfPath(srv, sessionId)) ==> o.response == ServerError("RuntimeError")
  {
    var granted := fs[Dir(srv, sessionId) := Directory];
    var pdf := PdfPath(srv, sessionId);
    SessionFileNotDir(srv.tempRoot, sessionId, PdfName);
    MakeDirKeepsOthers(fs, Dir(srv, sessionId), pdf);
    if !Exists(granted, pdf) then
      Outcome(PlainText(404, PdfMissing), granted, None)
    else
      match ReadFile(granted, pdf)
      case Failure(_) => Outcome(ServerError("RuntimeError"), granted, None)
      case Success(content) => Outcome(PdfDownload(pdf, PdfMediaType, PdfFilename, content), granted, None)
  }
}

=== FILE: mocks.dfy ===
/**
  The fixed documents of test mode: the LaTeX `generate_latex` returns and the PDF
  `compile_pdf` writes when `TEST_MODE` is `1`. Each is written as a concatenation of short
  pieces, which is the same text, so that its characters can be checked piece by piece.
*/
module Mocks {
  import opened Octets
  import opened PyText
  import opened Latex

  /** ASCII, and free of the backtick that code-fence markers are made of. */
  predicate PlainAscii(s: string) {
    forall i | 0 <= i < |s| :: s[i] as int < 128 && s[i] != '`'
  }

  lemma PlainAsciiConcat(a: string, b: string)
    requires PlainAscii(a) && PlainAscii(b)
    ensures PlainAscii(a + b)
  {
    forall i | 0 <= i < |a + b| ensures (a + b)[i] as int < 128 && (a + b)[i] != '`' {
      if i < |a| {
        assert (a + b)[i] == a[i];
      } else {
        assert (a + b)[i] == b[i - |a|];
      }
    }
  }

  // ----- the LaTeX document -----

  const DocumentClass: string := @"\documentclass{article}"
  const Preamble: string := @"\usepackage{amsmath}\begin{document}"
  const Heading: string := @"\section*{Test Worksheet}\begin{enumerate}"
  const FirstItem: string := @"\item $2+2=4$"
  const SecondItemLeft: string := @"\item $\frac{1}{2} + "
  const SecondItemRight: string := @"\frac{1}{3} = \frac{5}{6}$"
  const Closing: string := @"\end{enumerate}\end{document}"

  /** The mock worksheet, character for character the raw string of the handler. */
  const MockLatex: string :=
    DocumentClass + Preamble + Heading + FirstItem + SecondItemLeft + SecondItemRight + Closing

  lemma DocumentClassPlain() ensures PlainAscii(DocumentClass) {}
  lemma PreamblePlain() ensures PlainAscii(Preamble) {}
  lemma HeadingPlain() ensures PlainAscii(Heading) {}
  lemma FirstItemPlain() ensures PlainAscii(FirstItem) {}
  lemma SecondItemLeftPlain() ensures PlainAscii(SecondItemLeft) {}
  lemma SecondItemRightPlain() ensures PlainAscii(SecondItemRight) {}
  lemma ClosingPlain() ensures PlainAscii(Closing) {}

  lemma MockLatexPlain()
    ensures PlainAscii(MockLatex)
  {
    DocumentClassPlain();
    PreamblePlain();
    HeadingPlain();
    FirstItemPlain();
    SecondItemLeftPlain();
    SecondItemRightPlain();
    ClosingPlain();
    var s := DocumentClass;
    PlainAsciiConcat(s, Preamble);
    s := s + Preamble;
    PlainAsciiConcat(s, Heading);
    s := s + Heading;
    PlainAsciiConcat(s, FirstItem);
    s := s + FirstItem;
    PlainAsciiConcat(s, SecondItemLeft);
    s := s + SecondItemLeft;
    PlainAsciiConcat(s, SecondItemRight);
    s := s + SecondItemRight;
    PlainAsciiConcat(s, Closing);
  }

  /** The mock is a LaTeX document: it opens with `\documentclass` and closes with a brace. */
  lemma MockLatexIsDocument()
    ensures |MockLatex| >= 14 && MockLatex[..14] == @"\documentclass"
    ensures MockLatex[|MockLatex| - 1] == '}'
  {
    assert MockLatex[..|DocumentClass|] == DocumentClass;
  }

  /** `clean_latex` leaves the mock as it is: the mock is what a cleaned model answer looks like. */
  lemma MockLatexIsClean()
    ensures CleanLatex(MockLatex) == MockLatex
    ensures IsTrimmed(MockLatex) && NoMatch(MockLatex, Fence, false)
  {
    MockLatexPlain();
    MockLatexIsDocument();
    assert !IsSpace(MockLatex[0]) && !IsSpace(MockLatex[|MockLatex| - 1]);
    TickFreeHasNoFence(MockLatex);
    CleanLatexWithoutFences(MockLatex);
    StripTrimmed(MockLatex);
  }

  // ----- the PDF file -----

  const PdfHeader: string := "%PDF-1.5\n%Mock PDF for testing\n"
  const PdfCatalog: string := "1 0 obj<</Type/Catalog/Pages 2 0 R>>endobj\n"
  const PdfPagesHead: string := "2 0 obj<</Type/Pages/Count 1"
  const PdfPagesTail: string := "/Kids[3 0 R]>>endobj\n"
  const PdfPageHead: string := "3 0 obj<</Type/Page/MediaBox[0 0 595 842]"
  const PdfPageTail: string := "/Parent 2 0 R/Resources<<>>>>endobj\n"
  const PdfXrefHead: string := "xref\n0 4\n0000000000 65535 f\n"
  const PdfXrefMiddle: string := "0000000017 00000 n\n0000000065 00000 n\n"
  const PdfXrefLast: string := "0000000123 00000 n\n"
  const PdfTrailer: string := "trailer<</Size 4/Root 1 0 R>>\n"
  const PdfEnd: string := "startxref\n193\n%%EOF"

  /** The text of the mock PDF, character for character the bytes literal of the handler. */
  const MockPdfText: string :=
    PdfHeader + PdfCatalog + PdfPagesHead + PdfPagesTail + PdfPageHead + PdfPageTail
    + PdfXrefHead + PdfXrefMiddle + PdfXrefLast + PdfTrailer + PdfEnd

  lemma PdfHeaderPlain() ensures PlainAscii(PdfHeader) {}
  lemma PdfCatalogPlain() ensures PlainAscii(PdfCatalog) {}
  lemma PdfPagesHeadPlain() ensures PlainAscii(PdfPagesHead) {}
  lemma PdfPagesTailPlain() ensures PlainAscii(PdfPagesTail) {}
  lemma PdfPageHeadPlain() ensures PlainAscii(PdfPageHead) {}
  lemma PdfPageTailPlain() ensures PlainAscii(PdfPageTail) {}
  lemma PdfXrefHeadPlain() ensures PlainAscii(PdfXrefHead) {}
  lemma PdfXrefMiddlePlain() ensures PlainAscii(PdfXrefMiddle) {}
  lemma PdfXrefLastPlain() ensures PlainAscii(PdfXrefLast) {}
  lemma PdfTrailerPlain() ensures PlainAscii(PdfTrailer) {}
  lemma PdfEndPlain() ensures PlainAscii(PdfEnd) {}

  lemma MockPdfTextPlain()
    ensures PlainAscii(MockPdfText)
  {
    PdfHeaderPlain();
    PdfCatalogPlain();
    PdfPagesHeadPlain();
    PdfPagesTailPlain();
    PdfPageHeadPlain();
    PdfPageTailPlain();
    PdfXrefHeadPlain();
    PdfXrefMiddlePlain();
    PdfXrefLastPlain();
    PdfTrailerPlain();
    PdfEndPlain();
    var s := PdfHeader;
    PlainAsciiConcat(s, PdfCatalog);
    s := s + PdfCatalog;
    PlainAsciiConcat(s, PdfPagesHead);
    s := s + PdfPagesHead;
    PlainAsciiConcat(s, PdfPagesTail);
    s := s + PdfPagesTail;
    PlainAsciiConcat(s, PdfPageHead);
    s := s + PdfPageHead;
    PlainAsciiConcat(s, PdfPageTail);
    s := s + PdfPageTail;
    PlainAsciiConcat(s, PdfXrefHead);
    s := s + PdfXrefHead;
    PlainAsciiConcat(s, PdfXrefMiddle);
    s := s + PdfXrefMiddle;
    PlainAsciiConcat(s, PdfXrefLast);
    s := s + PdfXrefLast;
    PlainAsciiConcat(s, PdfTrailer);
    s := s + PdfTrailer;
    PlainAsciiConcat(s, PdfEnd);
  }

  /** The mock PDF text is ASCII, longer than a hundred characters and starts with "%PDF-". */
  lemma MockPdfTextShape()
    ensures IsAscii(MockPdfText) && |MockPdfText| > 100
    ensures MockPdfText[..5] == "%PDF-"
  {
    MockPdfTextPlain();
    assert MockPdfText[..|PdfHeader|] == PdfHeader;
    assert PdfHeader[..5] == "%PDF-";
  }

  /** The bytes `compile_pdf` writes in test mode: a PDF header, more than a hundred bytes. */
  function MockPdf(): (b: seq<Byte>)
    ensures |b| == |MockPdfText| > 100
    ensures b[..5] == [0x25, 0x50, 0x44, 0x46, 0x2D]  // "%PDF-"
  {
    MockPdfTextShape();
    var b := AsciiBytes(MockPdfText);
    assert forall k | 0 <= k < 5 :: b[k] == "%PDF-"[k] as int by {
      forall k | 0 <= k < 5 ensures b[k] == "%PDF-"[k] as int {
        assert MockPdfText[k] == MockPdfText[..5][k];
      }
    }
    b
  }
}

=== FILE: paths.dfy ===
/**
  Path construction: `os.path.join` on POSIX and the per-session scratch directory
  `join(TEMP_ROOT_DIR, "schulaufgabe", session_id)`. Paths are plain strings; no
  normalisation of `.` or `..` takes place, exactly as in `os.path.join`. `Resolved` says which
  directory the operating system reaches through a path; the file system model does not use it.
*/
module Paths {

  /** `os.path.join(a, b)` on POSIX: an absolute `b` replaces `a`; otherwise one `/` separates them. */
  function Join(a: string, b: string): (r: string)
    ensures |r| >= |b| && r[|r| - |b|..] == b
    ensures (b == [] || b[0] != '/') ==> |r| >= |a| && r[..|a|] == a
    ensures (b != [] && b[0] == '/') ==> r == b
    ensures |r| <= |a| + 1 + |b|
    ensures (b == [] || b[0] != '/') ==> |r| >= |a| + |b|
  {
    if b != [] && b[0] == '/' then b
    else if a == [] || a[|a| - 1] == '/' then a + b
    else a + "/" + b
  }

  /** The namespace directory under the temporary root that holds every session. */
  const Namespace: string := "schulaufgabe"

  /** `os.path.join(root, "schulaufgabe")`. */
  function NamespaceDir(root: string): (p: string)
    ensures |p| >= |Namespace| && p[|p| - |Namespace|..] == Namespace
  {
    Join(root, Namespace)
  }

  /** `os.path.join(root, "schulaufgabe", id)`: the session's scratch directory. */
  function SessionDir(root: string, id: string): string {
    Join(NamespaceDir(root), id)
  }

  /** The directory of an id that does not start with `/` is the namespace directory, a slash, and the id. */
  lemma SessionDirRelative(root: string, id: string)
    requires id == [] || id[0] != '/'
    ensures SessionDir(root, id) == NamespaceDir(root) + "/" + id
  {
    var p := NamespaceDir(root);
    assert p[|p| - 1] == Namespace[|Namespace| - 1] == 'e';
  }

  /** An id that starts with `/` is its own directory: `os.path.join` discards the root. */
  lemma SessionDirAbsolute(root: string, id: string)
    requires id != [] && id[0] == '/'
    ensures SessionDir(root, id) == id
  {
  }

  /** Ids of the same length have the same directory only if they are equal. */
  lemma SessionDirInjective(root: string, a: string, b: string)
    requires |a| == |b|
    requires SessionDir(root, a) == SessionDir(root, b)
    ensures a == b
  {
    var d := SessionDir(root, a);
    assert d[|d| - |a|..] == a;
  }

  /** A character occurs in a joined path exactly when it occurs in a part the join keeps, or is the separator. */
  lemma JoinHas(a: string, b: string, c: char)
    requires c != '/'
    ensures c in Join(a, b) <==> c in b || ((b == [] || b[0] != '/') && c in a)
  {
    if c in Join(a, b) { JoinAddsNothing(a, b, c); }
    JoinKeepsParts(a, b, c);
  }

  /** Besides the separator, every character of a joined path comes from a part the join keeps. */
  lemma JoinAddsNothing(a: string, b: string, c: char)
    requires c != '/' && c in Join(a, b)
    ensures c in b || ((b == [] || b[0] != '/') && c in a)
  {
    var r := Join(a, b);
    var i :| 0 <= i < |r| && r[i] == c;
    if !(b != [] && b[0] == '/') {
      if a == [] || a[|a| - 1] == '/' {
        if i < |a| { assert a[i] == c; } else { assert b[i - |a|] == c; }
      } else {
        if i < |a| { assert a[i] == c; } else if i > |a| { assert b[i - |a| - 1] == c; }
      }
    }
  }

  /** Every character of a part the join keeps occurs in the joined path. */
  lemma JoinKeepsParts(a: string, b: string, c: char)
    ensures c in b ==> c in Join(a, b)
    ensures (b == [] || b[0] != '/') && c in a ==> c in Join(a, b)
  {
    var r := Join(a, b);
    if c in b {
      var j :| 0 <= j < |b| && b[j] == c;
      assert r[|r| - |b|..][j] == c;
    }
    if (b == [] || b[0] != '/') && c in a {
      var j :| 0 <= j < |a| && a[j] == c;
      assert r[..|a|][j] == c;
    }
  }

  /** Under a root without NUL, a session directory holds a NUL exactly when its id does. */
  lemma SessionDirNul(root: string, id: string)
    requires '\0' !in root
    ensures '\0' in SessionDir(root, id) <==> '\0' in id
  {
    JoinHas(root, Namespace, '\0');
    JoinHas(NamespaceDir(root), id, '\0');
  }

  /** The fixed file names inside a session directory. */
  const InputName: string := "input.jpg"
  const TexName: string := "output.tex"
  const PdfName: string := "output.pdf"

  /** `os.path.join(session_dir, name)`. */
  function SessionFile(root: string, id: string, name: string): string {
    Join(SessionDir(root, id), name)
  }

  /** Every path a request for session `id` may create, write or delete. */
  function SessionPaths(root: string, id: string): set<string> {
    {SessionDir(root, id), SessionFile(root, id, InputName), SessionFile(root, id, TexName), SessionFile(root, id, PdfName)}
  }

  // ----- how the operating system reads a path -----

  /** The `/`-separated components of a path; a leading `/` gives an empty first component. */
  function Components(p: string): (r: seq<string>)
    ensures |r| >= 1
  {
    if p == [] then [""]
    else
      var rest := Components(p[1..]);
      if p[0] == '/' then [""] + rest else [[p[0]] + rest[0]] + rest[1..]
  }

  /**
    Resolution of components against a stack of directory names: empty and `.` components
    stay put, `..` goes up one level (and stays at the top), any other name goes down.
  */
  function Resolve(stack: seq<string>, comps: seq<string>): seq<string>
    decreases |comps|
  {
    if comps == [] then stack
    else if comps[0] == "" || comps[0] == "." then Resolve(stack, comps[1..])
    else if comps[0] == ".." then Resolve(if stack == [] then [] else stack[..|stack| - 1], comps[1..])
    else Resolve(stack + [comps[0]], comps[1..])
  }

  /**
    The directory a path names once the kernel has walked it, when every component on the way
    is a directory: what `os.makedirs` creates, and what a later `open` reaches.
  */
  function Resolved(p: string): seq<string> {
    Resolve([], Components(p))
  }

  /** A slash splits the components in two. */
  lemma {:induction false} ComponentsAroundSlash(u: string, v: string)
    ensures Components(u + "/" + v) == Components(u) + Components(v)
    decreases |u|
  {
    if u == [] {
      assert u + "/" + v == "/" + v;
      assert ("/" + v)[1..] == v;
    } else {
      assert (u + "/" + v)[0] == u[0];
      assert (u + "/" + v)[1..] == u[1..] + "/" + v;
      ComponentsAroundSlash(u[1..], v);
    }
  }

  /** A path without a slash is a single component. */
  lemma {:induction false} ComponentsOfName(v: string)
    requires forall i :: 0 <= i < |v| ==> v[i] != '/'
    ensures Components(v) == [v]
    decreases |v|
  {
    if v != [] {
      ComponentsOfName(v[1..]);
      assert [v[0]] + v[1..] == v;
    }
  }

  /** Resolving two runs of components is resolving the second from where the first ends. */
  lemma {:induction false} ResolveConcat(stack: seq<string>, c1: seq<string>, c2: seq<string>)
    ensures Resolve(stack, c1 + c2) == Resolve(Resolve(stack, c1), c2)
    decreases |c1|
  {
    if c1 == [] {
      assert c1 + c2 == c2;
    } else {
      assert (c1 + c2)[0] == c1[0];
      assert (c1 + c2)[1..] == c1[1..] + c2;
      var next := if c1[0] == "" || c1[0] == "." then stack
                  else if c1[0] == ".." then (if stack == [] then [] else stack[..|stack| - 1])
                  else stack + [c1[0]];
      ResolveConcat(next, c1[1..], c2);
    }
  }

  /** Three slash-free names joined by slashes are three components. */
  lemma ThreeComponents(x: string, y: string, z: string)
    requires forall i :: 0 <= i < |x| ==> x[i] != '/'
    requires forall i :: 0 <= i < |y| ==> y[i] != '/'
    requires forall i :: 0 <= i < |z| ==> z[i] != '/'
    ensures Components(x + "/" + y + "/" + z) == [x, y, z]
  {
    ComponentsOfName(x);
    ComponentsOfName(y);
    ComponentsOfName(z);
    ComponentsAroundSlash(y, z);
    assert x + "/" + y + "/" + z == x + "/" + (y + "/" + z);
    ComponentsAroundSlash(x, y + "/" + z);
  }
}

=== FILE: pytext.dfy ===
/**
  The pieces of Python's `str` and `re` behaviour that the backend relies on:
  `str.strip`/`lstrip` (no argument) and `re.sub(pattern, "", s)` for a literal pattern,
  optionally with `re.IGNORECASE`.
*/
module PyText {

  /** Python's `str.isspace()` for one character: the characters `strip()` removes. */
  predicate IsSpace(c: char) {
    || ('\t' <= c <= '\r')              // tab, line feed, vertical tab, form feed, carriage return
    || ('\U{1C}' <= c <= ' ')           // file/group/record/unit separators and space
    || c == '\U{85}' || c == '\U{A0}' || c == '\U{1680}'
    || ('\U{2000}' <= c <= '\U{200A}')
    || c == '\U{2028}' || c == '\U{2029}' || c == '\U{202F}' || c == '\U{205F}' || c == '\U{3000}'
  }

  /** Neither the first nor the last character is whitespace. */
  predicate IsTrimmed(s: string) {
    s == [] || (!IsSpace(s[0]) && !IsSpace(s[|s| - 1]))
  }

  /** `r` is `s` with a whitespace-only prefix of length `a` and a whitespace-only suffix removed. */
  ghost predicate TrimmedFrom(s: string, r: string, a: int) {
    && 0 <= a <= |s| - |r|
    && s[a..a + |r|] == r
    && (forall i :: 0 <= i < a ==> IsSpace(s[i]))
    && (forall i :: a + |r| <= i < |s| ==> IsSpace(s[i]))
  }

  /** Python's `s.lstrip()`. */
  function LStrip(s: string): (r: string)
    ensures |r| <= |s| && r == s[|s| - |r|..]
    ensures r != [] ==> !IsSpace(r[0])
    ensures forall i :: 0 <= i < |s| - |r| ==> IsSpace(s[i])
    decreases |s|
  {
    if s != [] && IsSpace(s[0]) then LStrip(s[1..]) else s
  }

  /** Python's `s.rstrip()`. */
  function RStrip(s: string): (r: string)
    ensures |r| <= |s| && r == s[..|r|]
    ensures r != [] ==> !IsSpace(r[|r| - 1])
    ensures forall i :: |r| <= i < |s| ==> IsSpace(s[i])
    decreases |s|
  {
    if s != [] && IsSpace(s[|s| - 1]) then RStrip(s[..|s| - 1]) else s
  }

  /** Python's `s.strip()`: the longest infix of `s` that neither starts nor ends with whitespace. */
  function Strip(s: string): (r: string)
    ensures IsTrimmed(r)
    ensures exists a :: TrimmedFrom(s, r, a)
  {
    var l := LStrip(s);
    var r := RStrip(l);
    assert TrimmedFrom(s, r, |s| - |l|);
    r
  }

  /** Stripping a string that is already trimmed returns it unchanged. */
  lemma StripTrimmed(s: string)
    requires IsTrimmed(s)
    ensures Strip(s) == s
    ensures LStrip(s) == s
  {
  }

  /** `lstrip` of whitespace followed by text that does not start with whitespace is that text. */
  lemma {:induction false} LStripSpaces(w: string, t: string)
    requires forall i :: 0 <= i < |w| ==> IsSpace(w[i])
    requires t == [] || !IsSpace(t[0])
    ensures LStrip(w + t) == t
    decreases |w|
  {
    if w != [] {
      assert (w + t)[1..] == w[1..] + t;
      LStripSpaces(w[1..], t);
    } else {
      assert w + t == t;
    }
  }

  /** `rstrip` of text that does not end with whitespace, followed by whitespace, is that text. */
  lemma {:induction false} RStripSpaces(t: string, w: string)
    requires forall i :: 0 <= i < |w| ==> IsSpace(w[i])
    requires t == [] || !IsSpace(t[|t| - 1])
    ensures RStrip(t + w) == t
    decreases |w|
  {
    if w != [] {
      assert (t + w)[..|t + w| - 1] == t + w[..|w| - 1];
      RStripSpaces(t, w[..|w| - 1]);
    } else {
      assert t + w == t;
    }
  }

  /** `strip` removes exactly the whitespace surrounding a trimmed text. */
  lemma StripSurrounded(w1: string, x: string, w2: string)
    requires forall i :: 0 <= i < |w1| ==> IsSpace(w1[i])
    requires forall i :: 0 <= i < |w2| ==> IsSpace(w2[i])
    requires IsTrimmed(x)
    ensures Strip(w1 + x + w2) == x
  {
    if x == [] {
      var w := w1 + w2;
      assert w1 + x + w2 == w + [];
      forall i | 0 <= i < |w| ensures IsSpace(w[i]) {
        if i < |w1| { assert w[i] == w1[i]; } else { assert w[i] == w2[i - |w1|]; }
      }
      LStripSpaces(w, []);
    } else {
      assert w1 + x + w2 == w1 + (x + w2);
      LStripSpaces(w1, x + w2);
      RStripSpaces(x, w2);
    }
  }

  /** ASCII case folding: `A`-`Z` become `a`-`z`, every other character folds to itself. */
  function FoldAscii(c: char): char {
    if 'A' <= c <= 'Z' then (c as int + 32) as char else c
  }

  /** Two characters match, literally or, when `ignoreCase`, up to ASCII case. */
  predicate SameChar(a: char, b: char, ignoreCase: bool) {
    if ignoreCase then FoldAscii(a) == FoldAscii(b) else a == b
  }

  /** The literal pattern `pat` matches `s` at position `i`. */
  predicate MatchesAt(s: string, i: int, pat: string, ignoreCase: bool) {
    && 0 <= i
    && i + |pat| <= |s|
    && forall j :: 0 <= j < |pat| ==> SameChar(s[i + j], pat[j], ignoreCase)
  }

  /** Matching in `t` is matching in `u + t`, shifted by `|u|`. */
  lemma MatchesAtShift(u: string, t: string, i: int, pat: string, ignoreCase: bool)
    requires 0 <= i
    ensures MatchesAt(u + t, |u| + i, pat, ignoreCase) <==> MatchesAt(t, i, pat, ignoreCase)
  {
    if i + |pat| <= |t| {
      forall j | 0 <= j < |pat| ensures SameChar((u + t)[|u| + i + j], pat[j], ignoreCase) == SameChar(t[i + j], pat[j], ignoreCase) {
        assert (u + t)[|u| + i + j] == t[i + j];
      }
    }
  }

  /** `pat` matches nowhere in `s`. */
  predicate NoMatch(s: string, pat: string, ignoreCase: bool) {
    forall i :: 0 <= i <= |s| - |pat| ==> !MatchesAt(s, i, pat, ignoreCase)
  }

  /**
    Python's `re.sub(pat, "", s)` (with `re.IGNORECASE` when `ignoreCase`) for a literal,
    non-empty pattern: the scan goes left to right, deletes the leftmost match and resumes
    after it, so matches never overlap and text created by a deletion is not re-scanned.
  */
  function DeleteAll(s: string, pat: string, ignoreCase: bool): (r: string)
    requires pat != []
    ensures |r| <= |s|
    decreases |s|
  {
    if |s| < |pat| then s
    else if MatchesAt(s, 0, pat, ignoreCase) then DeleteAll(s[|pat|..], pat, ignoreCase)
    else [s[0]] + DeleteAll(s[1..], pat, ignoreCase)
  }

  /** A pattern matches at the front of any text it starts. */
  lemma PatternMatchesItsPrefix(pat: string, t: string, ignoreCase: bool)
    ensures MatchesAt(pat + t, 0, pat, ignoreCase)
  {
    forall j | 0 <= j < |pat| ensures SameChar((pat + t)[0 + j], pat[j], ignoreCase) {
      assert (pat + t)[j] == pat[j];
    }
  }

  /** A leading copy of the pattern goes, and a rest the scan keeps is what remains. */
  lemma DeleteLeadingMatch(pat: string, t: string, ignoreCase: bool)
    requires pat != [] && DeleteAll(t, pat, ignoreCase) == t
    ensures DeleteAll(pat + t, pat, ignoreCase) == t
  {
    PatternMatchesItsPrefix(pat, t, ignoreCase);
    assert (pat + t)[|pat|..] == t;
    DeleteAllFront(pat + t, pat, ignoreCase);
  }

  /** A match at the front is deleted and the scan resumes right after it. */
  lemma DeleteAllFront(s: string, pat: string, ignoreCase: bool)
    requires pat != [] && MatchesAt(s, 0, pat, ignoreCase)
    ensures DeleteAll(s, pat, ignoreCase) == DeleteAll(s[|pat|..], pat, ignoreCase)
  {
  }

  /** Without a match at the front, the first character is kept and the scan moves on by one. */
  lemma DeleteAllKeepsFirst(s: string, pat: string, ignoreCase: bool)
    requires pat != [] && s != [] && !MatchesAt(s, 0, pat, ignoreCase)
    ensures DeleteAll(s, pat, ignoreCase) == [s[0]] + DeleteAll(s[1..], pat, ignoreCase)
  {
    assert s == [s[0]] + s[1..];
  }

  /** A prefix none of whose characters can start a match is copied through unchanged. */
  lemma {:induction false} DeleteAllSkip(u: string, t: string, pat: string, ignoreCase: bool)
    requires pat != []
    requires forall k :: 0 <= k < |u| ==> !SameChar(u[k], pat[0], ignoreCase)
    ensures DeleteAll(u + t, pat, ignoreCase) == u + DeleteAll(t, pat, ignoreCase)
    decreases |u|
  {
    if u == [] {
      assert u + t == t;
    } else {
      var s := u + t;
      assert s[0] == u[0];
      assert !MatchesAt(s, 0, pat, ignoreCase) by {
        assert !SameChar(s[0 + 0], pat[0], ignoreCase);
      }
      if |s| < |pat| {
        DeleteAllShortText(t, pat, ignoreCase);
        assert DeleteAll(s, pat, ignoreCase) == s;
      } else {
        assert s[1..] == u[1..] + t;
        DeleteAllSkip(u[1..], t, pat, ignoreCase);
        var d := DeleteAll(t, pat, ignoreCase);
        assert DeleteAll(s, pat, ignoreCase) == [u[0]] + (u[1..] + d);
        assert u == [u[0]] + u[1..];
        SeqAssoc([u[0]], u[1..], d);
      }
    }
  }

  /** Concatenation is associative. */
  lemma SeqAssoc(a: string, b: string, c: string)
    ensures a + (b + c) == (a + b) + c
  {
  }

  /** Text shorter than the pattern is left alone. */
  lemma DeleteAllShortText(t: string, pat: string, ignoreCase: bool)
    requires pat != [] && |t| < |pat|
    ensures DeleteAll(t, pat, ignoreCase) == t
  {
  }

  /** A match anywhere in `s` makes `DeleteAll` shorten it. */
  lemma {:induction false} DeleteAllShortens(s: string, pat: string, ignoreCase: bool, i: int)
    requires pat != []
    requires MatchesAt(s, i, pat, ignoreCase)
    ensures |DeleteAll(s, pat, ignoreCase)| < |s|
    decreases |s|
  {
    if MatchesAt(s, 0, pat, ignoreCase) {
    } else {
      assert i > 0;
      assert MatchesAt(s[1..], i - 1, pat, ignoreCase) by {
        forall j | 0 <= j < |pat| ensures SameChar(s[1..][i - 1 + j], pat[j], ignoreCase) {
          assert s[1..][i - 1 + j] == s[i + j];
        }
      }
      DeleteAllShortens(s[1..], pat, ignoreCase, i - 1);
    }
  }

  /** With no match in `s`, `DeleteAll` returns `s` itself. */
  lemma {:induction false} DeleteAllNoMatch(s: string, pat: string, ignoreCase: bool)
    requires pat != []
    requires NoMatch(s, pat, ignoreCase)
    ensures DeleteAll(s, pat, ignoreCase) == s
    decreases |s|
  {
    if |s| < |pat| {
    } else {
      assert !MatchesAt(s, 0, pat, ignoreCase);
      assert NoMatch(s[1..], pat, ignoreCase) by {
        forall i | MatchesAt(s[1..], i, pat, ignoreCase) ensures false {
          assert MatchesAt(s, i + 1, pat, ignoreCase) by {
            forall j | 0 <= j < |pat| ensures SameChar(s[i + 1 + j], pat[j], ignoreCase) {
              assert s[1..][i + j] == s[i + 1 + j];
            }
          }
        }
      }
      DeleteAllNoMatch(s[1..], pat, ignoreCase);
    }
  }

  /** `DeleteAll` leaves `s` unchanged exactly when `pat` occurs nowhere in `s`. */
  lemma DeleteAllFixedIff(s: string, pat: string, ignoreCase: bool)
    requires pat != []
    ensures DeleteAll(s, pat, ignoreCase) == s <==> NoMatch(s, pat, ignoreCase)
  {
    if NoMatch(s, pat, ignoreCase) {
      DeleteAllNoMatch(s, pat, ignoreCase);
    } else {
      var i :| MatchesAt(s, i, pat, ignoreCase);
      DeleteAllShortens(s, pat, ignoreCase, i);
    }
  }

  /** A pattern that does not occur in `s` does not occur in any infix of `s`. */
  lemma NoMatchInfix(s: string, a: int, r: string, pat: string, ignoreCase: bool)
    requires 0 <= a <= |s| - |r| && s[a..a + |r|] == r
    requires NoMatch(s, pat, ignoreCase)
    ensures NoMatch(r, pat, ignoreCase)
  {
    forall i | MatchesAt(r, i, pat, ignoreCase) ensures false {
      assert MatchesAt(s, a + i, pat, ignoreCase) by {
        forall j | 0 <= j < |pat| ensures SameChar(s[a + i + j], pat[j], ignoreCase) {
          assert r[i + j] == s[a + i + j];
        }
      }
    }
  }

  /** Stripping never creates a match. */
  lemma StripKeepsNoMatch(s: string, pat: string, ignoreCase: bool)
    requires NoMatch(s, pat, ignoreCase)
    ensures NoMatch(Strip(s), pat, ignoreCase)
  {
    var r := Strip(s);
    var a :| TrimmedFrom(s, r, a);
    NoMatchInfix(s, a, r, pat, ignoreCase);
  }
}

=== FILE: session.dfy ===
/**
  `get_secure_temp_dir`: the guard every handler passes its session id through. It accepts any
  `str` of length 36 (the comment above it speaks of the UUID format, but the length is all
  that is checked) and creates `join(TEMP_ROOT_DIR, "schulaufgabe", id)` with
  `os.makedirs(..., exist_ok=True)`, which raises `ValueError` for an id holding a NUL.
*/
module Session {
  import opened Wrappers
  import opened Octets
  import opened Paths
  import opened FileSystem
  import Uuid

  /** The value a caller hands the guard, as Python sees its type: a `str`, or anything else. */
  datatype Arg = Str(value: string) | NonStr

  /** The length of `str(uuid.uuid4())`, the only thing the guard checks. */
  const IdLength: nat := 36

  /**
    What the guard raises: `ValueError("Invalid session ID format")`, or what `os.makedirs`
    raises (`FileExistsError`, or `ValueError` for an embedded NUL).
  */
  datatype GuardError = InvalidSessionId | MakeDirsFailed(error: FsError)

  /** The directory the guard returns, and the file system after it was created. */
  datatype Granted = Granted(dir: string, fs: Fs)

  /** The test the guard applies: `isinstance(arg, str) and len(arg) == 36`. */
  predicate ValidSessionId(arg: Arg) {
    arg.Str? && |arg.value| == IdLength
  }

  function GetSecureTempDir(fs: Fs, root: string, arg: Arg): (r: Result<Granted, GuardError>)
    ensures r == Failure(InvalidSessionId) <==> !ValidSessionId(arg)
    ensures ValidSessionId(arg) ==>
      (r == Failure(MakeDirsFailed(EmbeddedNull(SessionDir(root, arg.value)))) <==> !NulFree(SessionDir(root, arg.value)))
    ensures r.Failure? && ValidSessionId(arg) && NulFree(SessionDir(root, arg.value)) ==>
      r.error == MakeDirsFailed(FileExists(SessionDir(root, arg.value)))
    ensures ValidSessionId(arg) ==>
      (r.Success? <==> NulFree(SessionDir(root, arg.value)) && !IsFile(fs, SessionDir(root, arg.value)))
    ensures r.Success? ==> r.value.dir == SessionDir(root, arg.value)
    ensures r.Success? ==> IsDir(r.value.fs, r.value.dir) && UnchangedExcept(fs, r.value.fs, {r.value.dir})
    ensures r.Success? && IsDir(fs, r.value.dir) ==> r.value.fs == fs
  {
    if !ValidSessionId(arg) then
      Failure(InvalidSessionId)
    else
      var dir := SessionDir(root, arg.value);
      match MakeDirs(fs, dir)
      case Failure(e) => Failure(MakeDirsFailed(e))
      case Success(fs') =>
        assert IsDir(fs, dir) ==> fs' == fs by {
          if IsDir(fs, dir) {
            assert fs[dir := Directory] == fs;
          }
        }
        Success(Granted(dir, fs'))
  }

  /** Passing the guard a second time changes nothing and yields the same directory. */
  lemma GuardIdempotent(fs: Fs, root: string, arg: Arg)
    requires GetSecureTempDir(fs, root, arg).Success?
    ensures GetSecureTempDir(GetSecureTempDir(fs, root, arg).value.fs, root, arg) == GetSecureTempDir(fs, root, arg)
  {
  }

  /** Every id `upload_file` mints passes the guard, and its directory lies in the namespace directory. */
  lemma NewSessionIdAccepted(fs: Fs, root: string, random: seq<Byte>)
    requires |random| == 16
    ensures ValidSessionId(Str(Uuid.NewSessionId(random))) && NulFree(Uuid.NewSessionId(random))
    ensures SessionDir(root, Uuid.NewSessionId(random)) == NamespaceDir(root) + "/" + Uuid.NewSessionId(random)
  {
    var id := Uuid.NewSessionId(random);
    Uuid.NewSessionIdShape(random);
    NulFreeIff(id);
    SessionDirRelative(root, id);
  }

  /**
    The guard is not a path check: a 36-character id that starts with `/` is accepted, and
    `os.path.join` then discards the temporary root, so the directory is the id itself.
  */
  lemma GuardAcceptsAbsoluteId(fs: Fs, root: string, id: string)
    requires |id| == IdLength && id[0] == '/' && NulFree(id) && !IsFile(fs, id)
    ensures GetSecureTempDir(fs, root, Str(id)) == Success(Granted(id, fs[id := Directory]))
  {
    SessionDirAbsolute(root, id);
  }

  /**
    Nor does the guard look for `..`: a 36-character id made of parent-directory steps is
    accepted and lands, unnormalised, after the namespace directory.
  */
  lemma GuardAcceptsParentSteps(fs: Fs, root: string, id: string)
    requires |id| == IdLength && id[..3] == "../" && NulFree(root) && NulFree(id)
    requires !IsFile(fs, NamespaceDir(root) + "/" + id)
    ensures GetSecureTempDir(fs, root, Str(id)).Success?
    ensures GetSecureTempDir(fs, root, Str(id)).value.dir == NamespaceDir(root) + "/" + id
  {
    assert id[0] == '.';
    SessionDirRelative(root, id);
    NulFreeIff(root);
    NulFreeIff(id);
    SessionDirNul(root, id);
    NulFreeIff(SessionDir(root, id));
  }

  /**
    The length check lets an id with a NUL through, but `os.makedirs` then raises `ValueError`:
    such an id never gets a directory, whatever the file system holds.
  */
  lemma GuardRejectsNul(fs: Fs, root: string, id: string)
    requires |id| == IdLength && !NulFree(id)
    ensures GetSecureTempDir(fs, root, Str(id)) == Failure(MakeDirsFailed(EmbeddedNull(SessionDir(root, id))))
  {
    JoinHas(NamespaceDir(root), id, '\0');
    NulFreeIff(id);
    NulFreeIff(SessionDir(root, id));
  }

  /** Thirty-one characters without a slash: the common tail of the two ids below. */
  const SharedTail: string := "0123456789abcdef0123456789abcde"

  /** A name that goes down one level. */
  lemma SharedTailIsName()
    ensures forall i :: 0 <= i < |SharedTail| ==> SharedTail[i] != '/'
    ensures |SharedTail| == 31 && SharedTail != "" && SharedTail != "." && SharedTail != ".."
  {
  }

  /**
    Sessions are not isolated from each other: two different ids that both pass the guard give
    two different directory strings that name the same directory, so each session reads and
    overwrites the other's files. The model's file system compares paths as strings and so keeps
    the two apart.
  */
  lemma DistinctIdsShareDirectory(root: string)
    ensures var a, b := "a/../" + SharedTail, "b/../" + SharedTail;
      a != b && ValidSessionId(Str(a)) && ValidSessionId(Str(b))
      && SessionDir(root, a) != SessionDir(root, b)
      && Resolved(SessionDir(root, a)) == Resolved(SessionDir(root, b))
      && Resolved(SessionDir(root, a)) == Resolved(NamespaceDir(root)) + [SharedTail]
  {
    var a, b := "a/../" + SharedTail, "b/../" + SharedTail;
    assert a[0] == 'a' && b[0] == 'b';
    UpOneDown(root, a, "a");
    UpOneDown(root, b, "b");
    var ns := NamespaceDir(root);
    assert (ns + "/" + a)[|ns| + 1] == 'a' && (ns + "/" + b)[|ns| + 1] == 'b';
  }

  /** An id of the form `d/../t` resolves to the namespace directory followed by `t`. */
  lemma UpOneDown(root: string, id: string, d: string)
    requires d == "a" || d == "b"
    requires id == d + "/../" + SharedTail
    ensures SessionDir(root, id) == NamespaceDir(root) + "/" + id
    ensures Resolved(SessionDir(root, id)) == Resolved(NamespaceDir(root)) + [SharedTail]
  {
    assert id[0] == d[0];
    SessionDirRelative(root, id);
    var ns := NamespaceDir(root);
    ComponentsAroundSlash(ns, id);
    StepComponents(id, d);
    ResolveConcat([], Components(ns), [d, "..", SharedTail]);
    StepResolves(Resolved(ns), d);
  }

  /** The components of `d/../t`. */
  lemma StepComponents(id: string, d: string)
    requires d == "a" || d == "b"
    requires id == d + "/../" + SharedTail
    ensures Components(id) == [d, "..", SharedTail]
  {
    SharedTailIsName();
    assert id == d + "/" + ".." + "/" + SharedTail;
    ThreeComponents(d, "..", SharedTail);
  }

  /** Going down into `d`, back up, and down into `t` ends in `t`. */
  lemma StepResolves(stack: seq<string>, d: string)
    requires d == "a" || d == "b"
    ensures Resolve(stack, [d, "..", SharedTail]) == stack + [SharedTail]
  {
    SharedTailIsName();
    var down := stack + [d];
    assert Resolve(stack, [d, "..", SharedTail]) == Resolve(down, ["..", SharedTail]) by {
      assert [d, "..", SharedTail][1..] == ["..", SharedTail];
    }
    assert Resolve(down, ["..", SharedTail]) == Resolve(stack, [SharedTail]) by {
      assert ["..", SharedTail][1..] == [SharedTail];
      assert down[..|down| - 1] == stack;
    }
    assert Resolve(stack, [SharedTail]) == Resolve(stack + [SharedTail], []) by {
      assert [SharedTail][1..] == [];
    }
  }
}

=== FILE: tectonic.dfy ===
/**
  `run_tectonic`: validates the two paths against the file system and builds the fixed argument
  vector for the LaTeX compiler. The process itself is an oracle: what it does is a
  `CompilerRun` the caller supplies, and `subprocess.run(..., check=True)` turns a non-zero exit
  status into `CalledProcessError`.
*/
module Tectonic {
  import opened Wrappers
  import opened FileSystem

  /** The absolute path of the compiler binary. */
  const TectonicPath: string := "/usr/local/bin/tectonic"

  /** The `ValueError`s `run_tectonic` raises before starting anything. */
  datatype PathError = InvalidTexPath(tex: string) | InvalidOutputDir(outDir: string)

  /** What the compiler process did, as reported by the oracle. */
  datatype CompilerRun =
    | LaunchFailed(message: string)
    | Exited(code: int, stdout: string, stderr: string, pdf: Option<Content>)

  /** The outcome of `subprocess.run(argv, capture_output=True, text=True, check=True)`. */
  datatype ProcessResult =
    | Completed(stdout: string, stderr: string)
    | CalledProcessError(code: int, stderr: string)
    | OsError(message: string)

  /** The argument vector: no shell, and the two paths are the only caller-supplied words. */
  function TectonicArgv(tex: string, outDir: string): (argv: seq<string>)
    ensures |argv| == 8 && argv[0] == TectonicPath
    ensures argv[1] == tex && argv[2] == "--outdir" && argv[3] == outDir
  {
    [TectonicPath, tex, "--outdir", outDir, "--print", "--synctex=none", "--keep-logs=no", "--keep-intermediates=no"]
  }

  /**
    Whatever the paths are, every word of the command line other than positions 1 and 3 is the
    same. Nothing here stops a path word that starts with `-` from being read as an option.
  */
  lemma ArgvOnlyPathsVary(tex1: string, out1: string, tex2: string, out2: string)
    ensures forall i | 0 <= i < 8 && i != 1 && i != 3 :: TectonicArgv(tex1, out1)[i] == TectonicArgv(tex2, out2)[i]
  {
  }

  /** The path checks of `run_tectonic`, the TeX file first; on success, the command to run. */
  function RunTectonic(fs: Fs, tex: string, outDir: string): (r: Result<seq<string>, PathError>)
    ensures r.Success? <==> IsFile(fs, tex) && IsDir(fs, outDir)
    ensures r.Failure? ==> r.error == (if IsFile(fs, tex) then InvalidOutputDir(outDir) else InvalidTexPath(tex))
    ensures r.Success? ==> r.value == TectonicArgv(tex, outDir)
  {
    if !Exists(fs, tex) || !IsFile(fs, tex) then Failure(InvalidTexPath(tex))
    else if !Exists(fs, outDir) || !IsDir(fs, outDir) then Failure(InvalidOutputDir(outDir))
    else Success(TectonicArgv(tex, outDir))
  }

  /** `check=True`: only exit status 0 counts as completion. */
  function Check(run: CompilerRun): (r: ProcessResult)
    ensures r.Completed? <==> run.Exited? && run.code == 0
    ensures r.CalledProcessError? <==> run.Exited? && run.code != 0
    ensures run.Exited? ==> r.stderr == run.stderr
  {
    match run
    case LaunchFailed(m) => OsError(m)
    case Exited(code, out, err, _) => if code == 0 then Completed(out, err) else CalledProcessError(code, err)
  }
}

=== FILE: uuid.dfy ===
/**
  Session identifiers: `str(uuid.uuid4())`. The random source is an oracle that supplies the
  16 random bytes; the version and variant bits are then fixed and the value is written as
  32 lower-case hexadecimal digits in groups of 8-4-4-4-12 separated by hyphens.
*/
module Uuid {
  import opened Wrappers
  import opened Octets

  /** A lower-case hexadecimal digit, as `str(uuid)` writes them. */
  predicate IsLowerHex(c: char) {
    ('0' <= c <= '9') || ('a' <= c <= 'f')
  }

  /** The digit for a nibble. */
  function HexDigit(n: int): (c: char)
    requires 0 <= n < 16
    ensures IsLowerHex(c)
  {
    if n < 10 then ('0' as int + n) as char else ('a' as int + n - 10) as char
  }

  /** The nibble a digit stands for; the inverse of `HexDigit`. */
  function DigitValue(c: char): (n: int)
    requires IsLowerHex(c)
    ensures 0 <= n < 16
    ensures HexDigit(n) == c
  {
    if c <= '9' then c as int - '0' as int else c as int - 'a' as int + 10
  }

  /** Each nibble has its own digit. */
  lemma DigitValueOfHexDigit(n: int)
    requires 0 <= n < 16
    ensures DigitValue(HexDigit(n)) == n
  {
  }

  /** Two digits per byte, high nibble first. */
  function Hex(bs: seq<Byte>): (r: string)
    ensures |r| == 2 * |bs|
    ensures forall i :: 0 <= i < |r| ==> IsLowerHex(r[i])
  {
    if bs == [] then [] else [HexDigit(bs[0] / 16), HexDigit(bs[0] % 16)] + Hex(bs[1..])
  }

  /** Every character of `h` is a lower-case hexadecimal digit. */
  predicate AllLowerHex(h: string) {
    forall i :: 0 <= i < |h| ==> IsLowerHex(h[i])
  }

  /** Pairs of digits back to bytes. */
  function UnHex(h: string): (bs: seq<Byte>)
    requires |h| % 2 == 0 && AllLowerHex(h)
    ensures 2 * |bs| == |h|
  {
    if h == [] then [] else [16 * DigitValue(h[0]) + DigitValue(h[1])] + UnHex(h[2..])
  }

  /** Decoding the digits of a byte string gives the byte string back. */
  lemma {:induction false} UnHexHex(bs: seq<Byte>)
    ensures UnHex(Hex(bs)) == bs
  {
    if bs != [] {
      var h := Hex(bs);
      assert h[2..] == Hex(bs[1..]);
      DigitValueOfHexDigit(bs[0] / 16);
      DigitValueOfHexDigit(bs[0] % 16);
      UnHexHex(bs[1..]);
    }
  }

  /** Encoding decoded digits gives the digits back. */
  lemma {:induction false} HexUnHex(h: string)
    requires |h| % 2 == 0 && AllLowerHex(h)
    ensures Hex(UnHex(h)) == h
    decreases |h|
  {
    if h != [] {
      var bs := UnHex(h);
      var b := 16 * DigitValue(h[0]) + DigitValue(h[1]);
      assert bs[0] == b && bs[1..] == UnHex(h[2..]);
      assert b / 16 == DigitValue(h[0]) && b % 16 == DigitValue(h[1]);
      HexUnHex(h[2..]);
      assert h == [h[0], h[1]] + h[2..];
    }
  }

  /** `Hex` works byte by byte, so it distributes over concatenation. */
  lemma {:induction false} HexAppend(a: seq<Byte>, b: seq<Byte>)
    ensures Hex(a + b) == Hex(a) + Hex(b)
  {
    if a != [] {
      assert (a + b)[1..] == a[1..] + b;
      HexAppend(a[1..], b);
    } else {
      assert a + b == b;
    }
  }

  /** The positions of the four hyphens in the 36-character form. */
  predicate IsHyphenPos(i: int) {
    i == 8 || i == 13 || i == 18 || i == 23
  }

  /** The canonical textual form: 36 characters, hyphens at 8, 13, 18 and 23, lower-case digits elsewhere. */
  predicate IsCanonicalUuid(s: string) {
    && |s| == 36
    && forall i :: 0 <= i < 36 ==> if IsHyphenPos(i) then s[i] == '-' else IsLowerHex(s[i])
  }

  /** `str(uuid)`: the 16 bytes as 8-4-4-4-12 hexadecimal digits. */
  function FormatUuid(bs: seq<Byte>): (s: string)
    requires |bs| == 16
    ensures IsCanonicalUuid(s)
  {
    var s := Hex(bs[..4]) + "-" + Hex(bs[4..6]) + "-" + Hex(bs[6..8]) + "-" + Hex(bs[8..10]) + "-" + Hex(bs[10..]);
    assert forall i :: 0 <= i < 8 ==> s[i] == Hex(bs[..4])[i];
    assert forall i :: 9 <= i < 13 ==> s[i] == Hex(bs[4..6])[i - 9];
    assert forall i :: 14 <= i < 18 ==> s[i] == Hex(bs[6..8])[i - 14];
    assert forall i :: 19 <= i < 23 ==> s[i] == Hex(bs[8..10])[i - 19];
    assert forall i :: 24 <= i < 36 ==> s[i] == Hex(bs[10..])[i - 24];
    s
  }

  /** The 32 digits of a canonical form, hyphens removed. */
  function Digits(s: string): (h: string)
    requires IsCanonicalUuid(s)
    ensures |h| == 32 && AllLowerHex(h)
  {
    s[..8] + s[9..13] + s[14..18] + s[19..23] + s[24..]
  }

  /** Reads a canonical form back into its 16 bytes; anything else is rejected. */
  function ParseUuid(s: string): Option<seq<Byte>> {
    if IsCanonicalUuid(s) then Some(UnHex(Digits(s))) else None
  }

  /** The digits of a formatted identifier are the digits of its bytes. */
  lemma DigitsOfFormat(bs: seq<Byte>)
    requires |bs| == 16
    ensures Digits(FormatUuid(bs)) == Hex(bs)
  {
    var s := FormatUuid(bs);
    assert s[..8] == Hex(bs[..4]);
    assert s[9..13] == Hex(bs[4..6]);
    assert s[14..18] == Hex(bs[6..8]);
    assert s[19..23] == Hex(bs[8..10]);
    assert s[24..] == Hex(bs[10..]);
    HexAppend(bs[..4], bs[4..6]);
    assert bs[..4] + bs[4..6] == bs[..6];
    HexAppend(bs[..6], bs[6..8]);
    assert bs[..6] + bs[6..8] == bs[..8];
    HexAppend(bs[..8], bs[8..10]);
    assert bs[..8] + bs[8..10] == bs[..10];
    HexAppend(bs[..10], bs[10..]);
    assert bs[..10] + bs[10..] == bs;
  }

  /** Parsing a formatted identifier recovers its bytes. */
  lemma ParseFormat(bs: seq<Byte>)
    requires |bs| == 16
    ensures ParseUuid(FormatUuid(bs)) == Some(bs)
  {
    DigitsOfFormat(bs);
    UnHexHex(bs);
  }

  /** Whatever parses is the formatting of what it parses to. */
  lemma FormatParse(s: string)
    requires ParseUuid(s).Some?
    ensures FormatUuid(ParseUuid(s).value) == s
  {
    var h := Digits(s);
    var bs := UnHex(h);
    HexUnHex(h);
    DigitsOfFormat(bs);
    var f := FormatUuid(bs);
    assert Digits(f) == h;
    forall i | 0 <= i < 36 ensures f[i] == s[i] {
      if IsHyphenPos(i) {
      } else if i < 8 {
        assert f[i] == Digits(f)[i] && s[i] == h[i];
      } else if i < 13 {
        assert f[i] == Digits(f)[i - 1] && s[i] == h[i - 1];
      } else if i < 18 {
        assert f[i] == Digits(f)[i - 2] && s[i] == h[i - 2];
      } else if i < 23 {
        assert f[i] == Digits(f)[i - 3] && s[i] == h[i - 3];
      } else {
        assert f[i] == Digits(f)[i - 4] && s[i] == h[i - 4];
      }
    }
  }

  /** Distinct byte strings give distinct identifiers. */
  lemma FormatInjective(a: seq<Byte>, b: seq<Byte>)
    requires |a| == 16 && |b| == 16
    requires FormatUuid(a) == FormatUuid(b)
    ensures a == b
  {
    ParseFormat(a);
    ParseFormat(b);
  }

  /**
    `uuid.uuid4()`: the random bytes with the version nibble (high half of byte 6) set to 4 and
    the variant bits (top two bits of byte 8) set to 10; all other bits are the random ones.
  */
  function Uuid4(random: seq<Byte>): (bs: seq<Byte>)
    requires |random| == 16
    ensures |bs| == 16
    ensures bs[6] / 16 == 4 && bs[6] % 16 == random[6] % 16
    ensures bs[8] / 64 == 2 && bs[8] % 64 == random[8] % 64
    ensures forall i :: 0 <= i < 16 && i != 6 && i != 8 ==> bs[i] == random[i]
  {
    random[6 := 0x40 + random[6] % 16][8 := 0x80 + random[8] % 64]
  }

  /** `str(uuid.uuid4())` for the given random bytes. */
  function NewSessionId(random: seq<Byte>): (id: string)
    requires |random| == 16
    ensures IsCanonicalUuid(id)
  {
    FormatUuid(Uuid4(random))
  }

  /**
    A fresh session identifier is 36 characters long, shows version 4 and the RFC 4122 variant,
    and holds neither a slash nor a NUL.
  */
  lemma NewSessionIdShape(random: seq<Byte>)
    requires |random| == 16
    ensures |NewSessionId(random)| == 36
    ensures NewSessionId(random)[14] == '4'
    ensures NewSessionId(random)[19] in {'8', '9', 'a', 'b'}
    ensures forall i :: 0 <= i < 36 ==> NewSessionId(random)[i] != '/'
    ensures '\0' !in NewSessionId(random)
  {
    var bs := Uuid4(random);
    var s := FormatUuid(bs);
    DigitsOfFormat(bs);
    assert s[14] == Digits(s)[12] == Hex(bs)[12];
    assert s[19] == Digits(s)[16] == Hex(bs)[16];
    HexAt(bs, 6);
    HexAt(bs, 8);
  }

  /** The two digits of byte `k` sit at positions `2k` and `2k + 1`. */
  lemma {:induction false} HexAt(bs: seq<Byte>, k: int)
    requires 0 <= k < |bs|
    ensures Hex(bs)[2 * k] == HexDigit(bs[k] / 16)
    ensures Hex(bs)[2 * k + 1] == HexDigit(bs[k] % 16)
  {
    if k > 0 {
      HexAt(bs[1..], k - 1);
      assert Hex(bs)[2..] == Hex(bs[1..]);
    }
  }
}

=== FILE: workflows.dfy ===
/**
  What the handlers do in sequence: the outcomes `compile_pdf` can have, the requests that fail
  because an earlier step is missing, and the upload, generate, compile, render flow the API
  tests walk through, in test mode and against real (oracle) model and compiler answers.
*/
module Workflows {
  import opened Wrappers
  import opened Octets
  import opened Environment
  import opened PyText
  import opened Latex
  import Uuid
  import opened Paths
  import opened FileSystem
  import opened Session
  import opened Tectonic
  import opened Mocks
  import opened Handlers

  /** An id the operating system accepts, none of whose paths exists yet: nobody has uploaded under it. */
  predicate Fresh(srv: Server, fs: Fs, id: string) {
    NulFree(id) && forall p | p in SessionPaths(srv.tempRoot, id) :: p !in fs
  }

  /** An id the operating system accepts, and nothing of the wrong kind where its directory and files go. */
  predicate Usable(srv: Server, fs: Fs, id: string) {
    NulFree(id) && !IsFile(fs, Dir(srv, id)) && !IsDir(fs, InputPath(srv, id))
    && !IsDir(fs, TexPath(srv, id)) && !IsDir(fs, PdfPath(srv, id))
  }

  lemma FreshIsUsable(srv: Server, fs: Fs, id: string)
    requires Fresh(srv, fs, id)
    ensures Usable(srv, fs, id)
    ensures !Exists(fs, InputPath(srv, id)) && !Exists(fs, PdfPath(srv, id))
  {
    assert Dir(srv, id) in SessionPaths(srv.tempRoot, id);
    assert InputPath(srv, id) in SessionPaths(srv.tempRoot, id);
    assert TexPath(srv, id) in SessionPaths(srv.tempRoot, id);
    assert PdfPath(srv, id) in SessionPaths(srv.tempRoot, id);
  }

  /** The guard on a usable session: the directory is created (or kept) and nothing else changes. */
  lemma GuardOnUsable(srv: Server, fs: Fs, id: string)
    requires ValidSessionId(Str(id)) && NulFree(id) && !IsFile(fs, Dir(srv, id))
    ensures GetSecureTempDir(fs, srv.tempRoot, Str(id)) == Success(Granted(Dir(srv, id), fs[Dir(srv, id) := Directory]))
  {
    GuardCases(srv, fs, id);
  }

  /** A usable session stays usable through the guard. */
  lemma GuardKeepsUsable(srv: Server, fs: Fs, id: string)
    requires Usable(srv, fs, id)
    ensures Usable(srv, fs[Dir(srv, id) := Directory], id)
    ensures forall name | name in {InputName, TexName, PdfName} ::
      SessionFile(srv.tempRoot, id, name) in fs[Dir(srv, id) := Directory] <==> SessionFile(srv.tempRoot, id, name) in fs
  {
    SessionFileNotDir(srv.tempRoot, id, InputName);
    SessionFileNotDir(srv.tempRoot, id, TexName);
    SessionFileNotDir(srv.tempRoot, id, PdfName);
  }

  // ----- compile_pdf -----

  /** Past the guard of a usable session, `compile_pdf` works in the session directory. */
  lemma CompileAfterGuard(srv: Server, fs: Fs, id: string, latex: string, run: CompilerRun)
    requires ValidSessionId(Str(id)) && NulFree(id) && !IsFile(fs, Dir(srv, id))
    ensures CompilePdf(srv, fs, id, latex, run)
      == CompileInDir(srv.env, fs[Dir(srv, id) := Directory], Dir(srv, id), TexPath(srv, id), PdfPath(srv, id), latex, run)
  {
    GuardOnUsable(srv, fs, id);
  }

  /** Where the TeX source can be written, it is, and the test-mode or compiler tail follows. */
  lemma CompileInDirWrites(env: Env, fs: Fs, dir: string, tex: string, pdf: string, latex: string, run: CompilerRun)
    requires !IsDir(fs, tex)
    ensures var written := fs[tex := File(Text(CleanLatex(latex)))];
      CompileInDir(env, fs, dir, tex, pdf, latex, run)
      == if TestMode(env) then MockCompile(written, pdf) else RunCompiler(written, dir, tex, pdf, CleanLatex(latex), run)
  {
    assert TexSource(latex) == CleanLatex(latex);
  }

  /** The test-mode tail in a directory: the source and the mock PDF are written, success is reported. */
  lemma MockInDir(env: Env, fs: Fs, dir: string, tex: string, pdf: string, latex: string, run: CompilerRun)
    requires TestMode(env) && tex != pdf && !IsDir(fs, tex) && !IsDir(fs, pdf)
    ensures var o := CompileInDir(env, fs, dir, tex, pdf, latex, run);
      o.response == Json(CompileSucceeded(pdf)) && o.call == None
      && ReadFile(o.fs, tex) == Success(Text(CleanLatex(latex)))
      && ReadFile(o.fs, pdf) == Success(Bytes(MockPdf()))
      && o.fs == fs[tex := File(Text(CleanLatex(latex)))][pdf := File(Bytes(MockPdf()))]
  {
    CompileInDirWrites(env, fs, dir, tex, pdf, latex, run);
    var written := fs[tex := File(Text(CleanLatex(latex)))];
    ReadOtherAfterWrite(written, pdf, tex, Bytes(MockPdf()));
  }

  /** A compiler run on a written source that exits non-zero: its standard error is the answer. */
  lemma RunFails(fs: Fs, dir: string, tex: string, pdf: string, source: string, run: CompilerRun)
    requires IsFile(fs, tex) && IsDir(fs, dir) && run.Exited? && run.code != 0
    ensures RunCompiler(fs, dir, tex, pdf, source, run)
      == Outcome(Json(CompileFailed(run.stderr)), Produce(fs, pdf, run), Some(CompilerCall(TectonicArgv(tex, dir), Text(source))))
  {
    assert RunTectonic(fs, tex, dir) == Success(TectonicArgv(tex, dir));
    assert Check(run) == CalledProcessError(run.code, run.stderr);
  }

  /** A compiler run on a written source that exits with status 0: the source is then removed. */
  lemma RunSucceeds(fs: Fs, dir: string, tex: string, pdf: string, source: string, run: CompilerRun)
    requires IsFile(fs, tex) && IsDir(fs, dir) && run.Exited? && run.code == 0
    ensures var cleaned := RemoveQuietly(Produce(fs, pdf, run), tex);
      RunCompiler(fs, dir, tex, pdf, source, run)
      == Outcome(Json(if Exists(cleaned, pdf) then CompileSucceeded(pdf) else CompileFailed(PdfNotGenerated)),
                 cleaned, Some(CompilerCall(TectonicArgv(tex, dir), Text(source))))
  {
    assert RunTectonic(fs, tex, dir) == Success(TectonicArgv(tex, dir));
    assert Check(run) == Completed(run.stdout, run.stderr);
  }

  /** Outside test mode, once the source can be written, the compiler runs on the written source. */
  lemma CompileInDirRuns(env: Env, fs: Fs, dir: string, tex: string, pdf: string, latex: string, run: CompilerRun)
    requires !TestMode(env) && !IsDir(fs, tex)
    ensures CompileInDir(env, fs, dir, tex, pdf, latex, run)
      == RunCompiler(fs[tex := File(Text(CleanLatex(latex)))], dir, tex, pdf, CleanLatex(latex), run)
  {
    CompileInDirWrites(env, fs, dir, tex, pdf, latex, run);
  }

  /** The compiler's PDF lands at its path, unless there is a directory there. */
  lemma ProduceWrites(fs: Fs, pdf: string, run: CompilerRun)
    ensures Produce(fs, pdf, run)
      == if run.Exited? && run.pdf.Some? && !IsDir(fs, pdf) then fs[pdf := File(run.pdf.value)] else fs
  {
  }

  /** The compiler tail in a directory, for a compiler that fails: stderr is returned, the source stays. */
  lemma FailureInDir(env: Env, fs: Fs, dir: string, tex: string, pdf: string, latex: string, run: CompilerRun)
    requires !TestMode(env) && tex != pdf && tex != dir && IsDir(fs, dir) && !IsDir(fs, tex)
    requires run.Exited? && run.code != 0
    ensures var o := CompileInDir(env, fs, dir, tex, pdf, latex, run);
      o.response == Json(CompileFailed(run.stderr))
      && o.call == Some(CompilerCall(TectonicArgv(tex, dir), Text(CleanLatex(latex))))
      && ReadFile(o.fs, tex) == Success(Text(CleanLatex(latex)))
  {
    var written := fs[tex := File(Text(CleanLatex(latex)))];
    var call := Some(CompilerCall(TectonicArgv(tex, dir), Text(CleanLatex(latex))));
    var produced := Produce(written, pdf, run);
    assert CompileInDir(env, fs, dir, tex, pdf, latex, run) == Outcome(Json(CompileFailed(run.stderr)), produced, call) by {
      CompileInDirRuns(env, fs, dir, tex, pdf, latex, run);
      WriteKeepsOthers(fs, tex, dir, Text(CleanLatex(latex)));
      RunFails(written, dir, tex, pdf, CleanLatex(latex), run);
    }
    assert ReadFile(produced, tex) == Success(Text(CleanLatex(latex))) by {
      ProduceWrites(written, pdf, run);
    }
  }

  /** The compiler tail in a directory, for a compiler that succeeds: the source is removed. */
  lemma SuccessInDir(env: Env, fs: Fs, dir: string, tex: string, pdf: string, latex: string, run: CompilerRun)
    requires !TestMode(env) && tex != pdf && tex != dir && IsDir(fs, dir) && !IsDir(fs, tex) && !IsDir(fs, pdf)
    requires run.Exited? && run.code == 0
    ensures var o := CompileInDir(env, fs, dir, tex, pdf, latex, run);
      !Exists(o.fs, tex)
      && o.call == Some(CompilerCall(TectonicArgv(tex, dir), Text(CleanLatex(latex))))
      && (o.response == Json(CompileSucceeded(pdf)) <==> Exists(o.fs, pdf))
      && (o.response != Json(CompileSucceeded(pdf)) ==> o.response == Json(CompileFailed(PdfNotGenerated)))
      && (run.pdf.Some? ==> o.response == Json(CompileSucceeded(pdf)) && ReadFile(o.fs, pdf) == Success(run.pdf.value))
  {
    var source := CleanLatex(latex);
    var written := fs[tex := File(Text(source))];
    CompileInDirRuns(env, fs, dir, tex, pdf, latex, run);
    WriteKeepsOthers(fs, tex, dir, Text(source));
    WriteKeepsOthers(fs, tex, pdf, Text(source));
    RunSucceeds(written, dir, tex, pdf, source, run);
    var produced := Produce(written, pdf, run);
    ProduceWrites(written, pdf, run);
    var cleaned := RemoveQuietly(produced, tex);
    var o := CompileInDir(env, fs, dir, tex, pdf, latex, run);
    assert IsFile(produced, tex);
    assert cleaned == produced - {tex};
    assert o.fs == cleaned;
  }

  /**
    The compiler tail in a directory, for a compiler that exits with status 0 without writing a
    PDF: a PDF already at the path survives, and success is reported for it.
  */
  lemma StaleInDir(env: Env, fs: Fs, dir: string, tex: string, pdf: string, latex: string, run: CompilerRun)
    requires !TestMode(env) && tex != pdf && tex != dir && IsDir(fs, dir) && !IsDir(fs, tex) && IsFile(fs, pdf)
    requires run.Exited? && run.code == 0 && run.pdf.None?
    ensures var o := CompileInDir(env, fs, dir, tex, pdf, latex, run);
      o.response == Json(CompileSucceeded(pdf)) && IsFile(o.fs, pdf) && o.fs[pdf] == fs[pdf]
  {
    var source := CleanLatex(latex);
    var written := fs[tex := File(Text(source))];
    var o := CompileInDir(env, fs, dir, tex, pdf, latex, run);
    assert o == RunCompiler(written, dir, tex, pdf, source, run) by {
      CompileInDirRuns(env, fs, dir, tex, pdf, latex, run);
    }
    assert IsFile(written, tex) && IsDir(written, dir) && IsFile(written, pdf) && written[pdf] == fs[pdf] by {
      WriteKeepsOthers(fs, tex, dir, Text(source));
      WriteKeepsOthers(fs, tex, pdf, Text(source));
    }
    var cleaned := RemoveQuietly(written, tex);
    assert cleaned == written - {tex};
    assert IsFile(cleaned, pdf) && cleaned[pdf] == fs[pdf];
    assert o.fs == cleaned && o.response == Json(CompileSucceeded(pdf)) by {
      assert Produce(written, pdf, run) == written;
      RunSucceeds(written, dir, tex, pdf, source, run);
    }
  }

  /** The session's paths, with the facts about them the lemmas below need. */
  lemma SessionLayout(srv: Server, fs: Fs, id: string)
    requires Usable(srv, fs, id)
    ensures TexPath(srv, id) != PdfPath(srv, id)
    ensures TexPath(srv, id) != Dir(srv, id) && PdfPath(srv, id) != Dir(srv, id) && InputPath(srv, id) != Dir(srv, id)
    ensures Usable(srv, fs[Dir(srv, id) := Directory], id)
    ensures IsDir(fs[Dir(srv, id) := Directory], Dir(srv, id))
  {
    SessionFilesDistinct(srv.tempRoot, id);
    GuardKeepsUsable(srv, fs, id);
  }

  /** Writing the directory and two of its files leaves a usable session usable. */
  lemma UsableAfterWrites(srv: Server, fs: Fs, id: string, tex: Content, pdf: Content)
    requires Usable(srv, fs, id)
    ensures Usable(srv, fs[Dir(srv, id) := Directory][TexPath(srv, id) := File(tex)][PdfPath(srv, id) := File(pdf)], id)
  {
    SessionLayout(srv, fs, id);
    SessionFilesDistinct(srv.tempRoot, id);
  }

  /** In test mode the cleaned source and the mock PDF are written and success is reported. */
  lemma CompileInTestMode(srv: Server, fs: Fs, id: string, latex: string, run: CompilerRun)
    requires TestMode(srv.env) && ValidSessionId(Str(id)) && Usable(srv, fs, id)
    ensures var o := CompilePdf(srv, fs, id, latex, run);
      o.response == Json(CompileSucceeded(PdfPath(srv, id))) && o.call == None
      && ReadFile(o.fs, TexPath(srv, id)) == Success(Text(CleanLatex(latex)))
      && ReadFile(o.fs, PdfPath(srv, id)) == Success(Bytes(MockPdf()))
      && o.fs == fs[Dir(srv, id) := Directory][TexPath(srv, id) := File(Text(CleanLatex(latex)))]
                  [PdfPath(srv, id) := File(Bytes(MockPdf()))]
  {
    SessionLayout(srv, fs, id);
    CompileAfterGuard(srv, fs, id, latex, run);
    MockInDir(srv.env, fs[Dir(srv, id) := Directory], Dir(srv, id), TexPath(srv, id), PdfPath(srv, id), latex, run);
  }

  /**
    A compiler that exits with a non-zero status: its standard error is returned as the
    failure and the TeX source stays on disk.
  */
  lemma CompileFailureKeepsSource(srv: Server, fs: Fs, id: string, latex: string, run: CompilerRun)
    requires !TestMode(srv.env) && ValidSessionId(Str(id)) && Usable(srv, fs, id)
    requires run.Exited? && run.code != 0
    ensures var o := CompilePdf(srv, fs, id, latex, run);
      o.response == Json(CompileFailed(run.stderr))
      && o.call == Some(CompilerCall(TectonicArgv(TexPath(srv, id), Dir(srv, id)), Text(CleanLatex(latex))))
      && ReadFile(o.fs, TexPath(srv, id)) == Success(Text(CleanLatex(latex)))
  {
    SessionLayout(srv, fs, id);
    CompileAfterGuard(srv, fs, id, latex, run);
    FailureInDir(srv.env, fs[Dir(srv, id) := Directory], Dir(srv, id), TexPath(srv, id), PdfPath(srv, id), latex, run);
  }

  /**
    A compiler that exits with status 0: the TeX source is removed, and success is reported
    exactly when a PDF is then present; a PDF the compiler wrote is the one on disk.
  */
  lemma CompileSuccessRemovesSource(srv: Server, fs: Fs, id: string, latex: string, run: CompilerRun)
    requires !TestMode(srv.env) && ValidSessionId(Str(id)) && Usable(srv, fs, id)
    requires run.Exited? && run.code == 0
    ensures var o := CompilePdf(srv, fs, id, latex, run);
      !Exists(o.fs, TexPath(srv, id))
      && o.call == Some(CompilerCall(TectonicArgv(TexPath(srv, id), Dir(srv, id)), Text(CleanLatex(latex))))
      && (o.response == Json(CompileSucceeded(PdfPath(srv, id))) <==> Exists(o.fs, PdfPath(srv, id)))
      && (o.response != Json(CompileSucceeded(PdfPath(srv, id))) ==> o.response == Json(CompileFailed(PdfNotGenerated)))
      && (run.pdf.Some? ==>
            o.response == Json(CompileSucceeded(PdfPath(srv, id)))
            && ReadFile(o.fs, PdfPath(srv, id)) == Success(run.pdf.value))
  {
    SessionLayout(srv, fs, id);
    CompileAfterGuard(srv, fs, id, latex, run);
    SuccessInDir(srv.env, fs[Dir(srv, id) := Directory], Dir(srv, id), TexPath(srv, id), PdfPath(srv, id), latex, run);
  }

  /** Whatever the compilation does, the session directory stays a directory. */
  lemma CompileKeepsDir(srv: Server, fs: Fs, id: string, latex: string, run: CompilerRun)
    requires ValidSessionId(Str(id)) && Usable(srv, fs, id)
    ensures IsDir(CompilePdf(srv, fs, id, latex, run).fs, Dir(srv, id))
  {
    SessionLayout(srv, fs, id);
    CompileAfterGuard(srv, fs, id, latex, run);
  }

  /** Of two compilations in test mode, the second one's source is the one left on disk. */
  lemma SecondCompileWins(srv: Server, fs: Fs, id: string, latex1: string, latex2: string, run1: CompilerRun, run2: CompilerRun)
    requires TestMode(srv.env) && ValidSessionId(Str(id)) && Usable(srv, fs, id)
    ensures var o1 := CompilePdf(srv, fs, id, latex1, run1);
      var o2 := CompilePdf(srv, o1.fs, id, latex2, run2);
      o2.response == Json(CompileSucceeded(PdfPath(srv, id)))
      && ReadFile(o2.fs, TexPath(srv, id)) == Success(Text(CleanLatex(latex2)))
  {
    var o1 := CompilePdf(srv, fs, id, latex1, run1);
    CompileInTestMode(srv, fs, id, latex1, run1);
    UsableAfterWrites(srv, fs, id, Text(CleanLatex(latex1)), Bytes(MockPdf()));
    CompileInTestMode(srv, o1.fs, id, latex2, run2);
  }

  /** A compilation that exits with status 0 and writes a PDF leaves a usable session usable. */
  lemma UsableAfterCompile(srv: Server, fs: Fs, id: string, latex: string, run: CompilerRun)
    requires !TestMode(srv.env) && ValidSessionId(Str(id)) && Usable(srv, fs, id)
    requires run.Exited? && run.code == 0 && run.pdf.Some?
    ensures Usable(srv, CompilePdf(srv, fs, id, latex, run).fs, id)
  {
    var o := CompilePdf(srv, fs, id, latex, run);
    assert !IsDir(o.fs, TexPath(srv, id)) && !IsDir(o.fs, PdfPath(srv, id)) by {
      CompileSuccessRemovesSource(srv, fs, id, latex, run);
    }
    assert !IsFile(o.fs, Dir(srv, id)) by {
      CompileKeepsDir(srv, fs, id, latex, run);
    }
    InputOutsideCompileFrame(srv, fs, o.fs, id);
  }

  /** `input.jpg` lies outside the paths `compile_pdf` may change. */
  lemma InputOutsideCompileFrame(srv: Server, fs: Fs, fs': Fs, id: string)
    requires UnchangedExcept(fs, fs', {Dir(srv, id), TexPath(srv, id), PdfPath(srv, id)})
    ensures IsDir(fs', InputPath(srv, id)) <==> IsDir(fs, InputPath(srv, id))
    ensures IsFile(fs', InputPath(srv, id)) <==> IsFile(fs, InputPath(srv, id))
  {
    SessionFilesDistinct(srv.tempRoot, id);
    SessionFileNotDir(srv.tempRoot, id, InputName);
    UnchangedOutside(fs, fs', {Dir(srv, id), TexPath(srv, id), PdfPath(srv, id)}, InputPath(srv, id));
  }

  /**
    Of two compilations by the compiler that both exit with status 0 and write a PDF, the second
    one's PDF is the one `render_pdf` serves.
  */
  lemma SecondRealCompileWins(srv: Server, fs: Fs, id: string, latex1: string, latex2: string, run1: CompilerRun, run2: CompilerRun)
    requires !TestMode(srv.env) && ValidSessionId(Str(id)) && Usable(srv, fs, id)
    requires run1.Exited? && run1.code == 0 && run1.pdf.Some?
    requires run2.Exited? && run2.code == 0 && run2.pdf.Some?
    ensures var o1 := CompilePdf(srv, fs, id, latex1, run1);
      var o2 := CompilePdf(srv, o1.fs, id, latex2, run2);
      o2.response == Json(CompileSucceeded(PdfPath(srv, id)))
      && o2.call == Some(CompilerCall(TectonicArgv(TexPath(srv, id), Dir(srv, id)), Text(CleanLatex(latex2))))
      && RenderPdf(srv, o2.fs, id).response == PdfDownload(PdfPath(srv, id), PdfMediaType, PdfFilename, run2.pdf.value)
  {
    var o1 := CompilePdf(srv, fs, id, latex1, run1);
    UsableAfterCompile(srv, fs, id, latex1, run1);
    CompileSuccessRemovesSource(srv, o1.fs, id, latex2, run2);
    CompileKeepsDir(srv, o1.fs, id, latex2, run2);
  }

  /**
    A compiler that exits with status 0 without writing a PDF, in a session where an earlier
    compilation left one: success is reported, and `render_pdf` serves the earlier PDF.
  */
  lemma StalePdfServed(srv: Server, fs: Fs, id: string, latex: string, stdout: string, stderr: string)
    requires !TestMode(srv.env) && ValidSessionId(Str(id)) && Usable(srv, fs, id) && IsFile(fs, PdfPath(srv, id))
    ensures var o := CompilePdf(srv, fs, id, latex, Exited(0, stdout, stderr, None));
      o.response == Json(CompileSucceeded(PdfPath(srv, id)))
      && RenderPdf(srv, o.fs, id).response == PdfDownload(PdfPath(srv, id), PdfMediaType, PdfFilename, fs[PdfPath(srv, id)].content)
  {
    var run := Exited(0, stdout, stderr, None);
    var o := CompilePdf(srv, fs, id, latex, run);
    assert o.response == Json(CompileSucceeded(PdfPath(srv, id)))
           && IsFile(o.fs, PdfPath(srv, id)) && o.fs[PdfPath(srv, id)] == fs[PdfPath(srv, id)] by {
      SessionLayout(srv, fs, id);
      MakeDirKeepsOthers(fs, Dir(srv, id), PdfPath(srv, id));
      CompileAfterGuard(srv, fs, id, latex, run);
      StaleInDir(srv.env, fs[Dir(srv, id) := Directory], Dir(srv, id), TexPath(srv, id), PdfPath(srv, id), latex, run);
    }
    CompileKeepsDir(srv, fs, id, latex, run);
  }

  // ----- requests that come too early -----

  /** `generate_latex` before any upload: the image is missing and the model is not called. */
  lemma GenerateBeforeUpload(srv: Server, fs: Fs, id: string, promptFile: Option<string>, reply: ModelReply)
    requires !TestMode(srv.env) && ApiKeySet(srv.env) && ValidSessionId(Str(id)) && Fresh(srv, fs, id)
    ensures var o := GenerateLatex(srv, fs, id, promptFile, reply);
      o.response == PlainText(404, ImageMissing) && o.call == None
  {
    FreshIsUsable(srv, fs, id);
  }

  /** `render_pdf` before any compilation: the PDF is missing. */
  lemma RenderBeforeCompile(srv: Server, fs: Fs, id: string)
    requires ValidSessionId(Str(id)) && Fresh(srv, fs, id)
    ensures RenderPdf(srv, fs, id).response == PlainText(404, PdfMissing)
  {
    FreshIsUsable(srv, fs, id);
  }

  /**
    `compile_pdf` does not look for an upload: in test mode it succeeds for a well-formed id
    nobody has uploaded under, and the session still has no image afterwards.
  */
  lemma CompileWithoutUpload(srv: Server, fs: Fs, id: string, latex: string, run: CompilerRun)
    requires TestMode(srv.env) && ValidSessionId(Str(id)) && Fresh(srv, fs, id)
    ensures var o := CompilePdf(srv, fs, id, latex, run);
      o.response == Json(CompileSucceeded(PdfPath(srv, id))) && !Exists(o.fs, InputPath(srv, id))
  {
    FreshIsUsable(srv, fs, id);
    CompileInTestMode(srv, fs, id, latex, run);
    SessionLayout(srv, fs, id);
    SessionFilesDistinct(srv.tempRoot, id);
  }

  // ----- the upload, generate, compile, render flow -----

  /** Storing an upload in a usable session creates the directory and `input.jpg`, nothing else. */
  lemma StoreOnUsable(srv: Server, fs: Fs, id: string, upload: seq<Byte>)
    requires ValidSessionId(Str(id)) && Usable(srv, fs, id)
    ensures StoreUpload(srv, fs, id, upload)
      == Outcome(Json(SessionCreated(id)), fs[Dir(srv, id) := Directory][InputPath(srv, id) := File(Bytes(upload))], None)
  {
    SessionLayout(srv, fs, id);
    GuardOnUsable(srv, fs, id);
  }

  /** Past an upload, `generate_latex` sends the stored image and the stripped prompt to the model. */
  lemma GenerateWithImage(srv: Server, fs: Fs, id: string, prompt: string, reply: ModelReply)
    requires !TestMode(srv.env) && ApiKeySet(srv.env) && ValidSessionId(Str(id)) && NulFree(id)
    requires IsDir(fs, Dir(srv, id)) && IsFile(fs, InputPath(srv, id))
    ensures GenerateLatex(srv, fs, id, Some(prompt), reply)
      == Outcome(ReplyResponse(reply), fs, Some(ModelCall(ModelRequest(fs[InputPath(srv, id)].content, ImageMimeType, Strip(prompt)))))
  {
  }

  /** The session after an upload: still usable, its directory in place and `input.jpg` holding the upload. */
  lemma UsableAfterUpload(srv: Server, fs: Fs, id: string, upload: seq<Byte>)
    requires Fresh(srv, fs, id)
    ensures var fs1 := fs[Dir(srv, id) := Directory][InputPath(srv, id) := File(Bytes(upload))];
      Usable(srv, fs1, id) && IsDir(fs1, Dir(srv, id)) && fs1[Dir(srv, id) := Directory] == fs1
      && IsFile(fs1, InputPath(srv, id)) && fs1[InputPath(srv, id)].content == Bytes(upload)
  {
    FreshIsUsable(srv, fs, id);
    SessionLayout(srv, fs, id);
    SessionFilesDistinct(srv.tempRoot, id);
    var fs1 := fs[Dir(srv, id) := Directory][InputPath(srv, id) := File(Bytes(upload))];
    assert fs1[Dir(srv, id) := Directory] == fs1;
  }

  /**
    The flow of the API tests against a real model and compiler, on a session id nobody has
    used: the upload is what the model sees, the cleaned answer is what the client gets, sending
    it back compiles exactly that text (cleaning is idempotent), and the PDF the compiler wrote
    is what `render_pdf` serves.
  */
  lemma ModelToPdf(srv: Server, fs: Fs, id: string, upload: seq<Byte>, prompt: string,
                   answer: string, repr: string, stdout: string, stderr: string, pdf: Content)
    requires !TestMode(srv.env) && ApiKeySet(srv.env) && ValidSessionId(Str(id)) && Fresh(srv, fs, id)
    requires answer != ""
    ensures var up := StoreUpload(srv, fs, id, upload);
      var gen := GenerateLatex(srv, up.fs, id, Some(prompt), Replied(Some(answer), repr));
      var comp := CompilePdf(srv, gen.fs, id, CleanLatex(answer), Exited(0, stdout, stderr, Some(pdf)));
      var ren := RenderPdf(srv, comp.fs, id);
      up.response == Json(SessionCreated(id))
      && gen.call == Some(ModelCall(ModelRequest(Bytes(upload), ImageMimeType, Strip(prompt))))
      && gen.response == PlainText(200, CleanLatex(answer))
      && comp.call == Some(CompilerCall(TectonicArgv(TexPath(srv, id), Dir(srv, id)), Text(CleanLatex(answer))))
      && comp.response == Json(CompileSucceeded(PdfPath(srv, id)))
      && ren.response == PdfDownload(PdfPath(srv, id), PdfMediaType, PdfFilename, pdf)
  {
    var fs1 := fs[Dir(srv, id) := Directory][InputPath(srv, id) := File(Bytes(upload))];
    var up := StoreUpload(srv, fs, id, upload);
    assert up == Outcome(Json(SessionCreated(id)), fs1, None) by {
      FreshIsUsable(srv, fs, id);
      StoreOnUsable(srv, fs, id, upload);
    }
    UsableAfterUpload(srv, fs, id, upload);
    var reply := Replied(Some(answer), repr);
    var gen := GenerateLatex(srv, fs1, id, Some(prompt), reply);
    assert gen == Outcome(PlainText(200, CleanLatex(answer)), fs1,
                          Some(ModelCall(ModelRequest(Bytes(upload), ImageMimeType, Strip(prompt))))) by {
      GenerateWithImage(srv, fs1, id, prompt, reply);
    }
    var run := Exited(0, stdout, stderr, Some(pdf));
    var comp := CompilePdf(srv, fs1, id, CleanLatex(answer), run);
    assert comp.call == Some(CompilerCall(TectonicArgv(TexPath(srv, id), Dir(srv, id)), Text(CleanLatex(answer))))
           && comp.response == Json(CompileSucceeded(PdfPath(srv, id)))
           && ReadFile(comp.fs, PdfPath(srv, id)) == Success(pdf) by {
      CleanLatexIdempotent(answer);
      CompileSuccessRemovesSource(srv, fs1, id, CleanLatex(answer), run);
    }
    CompileKeepsDir(srv, fs1, id, CleanLatex(answer), run);
  }

  /**
    The flow of the API tests in test mode, starting from the upload that draws the session id:
    the mock worksheet comes back, compiling it writes the mock PDF without running anything, and
    `render_pdf` serves that PDF.
  */
  lemma TestModeFlow(srv: Server, fs: Fs, random: seq<Byte>, upload: seq<Byte>,
                     promptFile: Option<string>, reply: ModelReply, run: CompilerRun)
    requires TestMode(srv.env) && |random| == 16 && Fresh(srv, fs, Uuid.NewSessionId(random))
    ensures var id := Uuid.NewSessionId(random);
      var up := UploadFile(srv, fs, random, upload);
      var gen := GenerateLatex(srv, up.fs, id, promptFile, reply);
      var comp := CompilePdf(srv, gen.fs, id, MockLatex, run);
      var ren := RenderPdf(srv, comp.fs, id);
      up.response == Json(SessionCreated(id))
      && gen.response == PlainText(200, MockLatex)
      && comp.response == Json(CompileSucceeded(PdfPath(srv, id))) && comp.call == None
      && ren.response == PdfDownload(PdfPath(srv, id), PdfMediaType, PdfFilename, Bytes(MockPdf()))
  {
    var id := Uuid.NewSessionId(random);
    NewSessionIdAccepted(fs, srv.tempRoot, random);
    var fs1 := fs[Dir(srv, id) := Directory][InputPath(srv, id) := File(Bytes(upload))];
    var up := UploadFile(srv, fs, random, upload);
    assert up == Outcome(Json(SessionCreated(id)), fs1, None) by {
      FreshIsUsable(srv, fs, id);
      StoreOnUsable(srv, fs, id, upload);
    }
    UsableAfterUpload(srv, fs, id, upload);
    var comp := CompilePdf(srv, fs1, id, MockLatex, run);
    assert comp.response == Json(CompileSucceeded(PdfPath(srv, id))) && comp.call == None
           && ReadFile(comp.fs, PdfPath(srv, id)) == Success(Bytes(MockPdf())) by {
      CompileInTestMode(srv, fs1, id, MockLatex, run);
    }
    CompileKeepsDir(srv, fs1, id, MockLatex, run);
  }
}

=== FILE: wrappers.dfy ===
/** Option and Result, the failure-carrying datatypes used throughout the model. */
module Wrappers {

  datatype Option<+T> = None | Some(value: T) {

    /** The wrapped value, or `default` when there is none. */
    function GetOr(default: T): T {
      match this
      case Some(v) => v
      case None => default
    }
  }

  /** The outcome of an operation that either yields a value or raises an error. */
  datatype Result<+T, +E> = Success(value: T) | Failure(error: E)
}

/** Bytes, as stored in files and produced by the random source. */
module Octets {

  type Byte = b: int | 0 <= b < 256

  /** Every character lies in the ASCII range. */
  predicate IsAscii(s: string) {
    forall i :: 0 <= i < |s| ==> s[i] as int < 128
  }

  /** The bytes of a string whose characters all lie in the ASCII range (Python's `b"..."` literal). */
  function AsciiBytes(s: string): (r: seq<Byte>)
    requires IsAscii(s)
    ensures |r| == |s|
    ensures forall i :: 0 <= i < |s| ==> r[i] == s[i] as int
  {
    seq(|s|, i requires 0 <= i < |s| => s[i] as int)
  }
}
